=== FILE: README.md ===
# ArcheryPlatformer game rules in Dafny

This project models the discrete rules of the ArcheryPlatformer game, a
networked 2D platformer (Unity with the FishNet networking library) where
players shoot, pick up and re-nock arrows. The model covers:

- the arrow lifecycle (`Flight`, `Stuck`, `Quiver`, `Nock`) in both arrow
  classes, `CharacterParts/ArrowBehaviour.cs` (`ArrowMachine`) and the
  hook-based `Arrows/ArrowBehaviour.cs` (`HookedArrow`), with lemmas that
  the two agree except on which damageable component a contact looks for
  (`ArrowVariants`);
- the static list of live arrows both classes keep (`ArrowRegistry`);
- the bow: a single-slot arrow inventory with a clamped draw progress, a
  per-tick draw rule (cancel, then advance, then release) and the
  reconciliation overwrite (`BowController`);
- a world of arrows and bows keyed by identity, where the cross-object
  effects live (`ArcheryWorld`): adding an arrow to a bow nocks it,
  removing it releases its ownership, and a release launches it. The world
  invariant `Consistent` says that a bow's arrow is live, on the string and
  owned by that bow;
- the arrow collector, which offers nearby stuck arrows to a list of
  inventories (`ArrowCollector`);
- health with its clamping setter and its notifications, in the networked
  variant (`Health`) and the older offline variant (`LegacyHealth`);
- the tick-subscription flag of `Utils/TimedNetworkBehaviour.cs`
  (`TickSubscription`).

Every mutator is a pure function from a record to the next record. A C#
method that returns a success flag returns a `Step`/`Added` pair here.
Unity events are returned as ordered lists of notifications. A `null`
engine reference is `None`. The tick clock, the server/client role and the
presence of a time manager are parameters.

Four behaviours of the code are worth noting:

- `TryAddArrowToInventory` stores the arrow in the slot before asking the
  arrow to nock, and keeps it there when the arrow refuses
  (`ArcheryWorld.RefusedNockStillFillsSlot`).
- Death is raised on every lethal `Damage` call, including calls on a
  damageable already at zero health (`Health.DeathTwice`).
- No contact moves a `Stuck` arrow back to `Flight`: the stuck state's
  contact handler is empty.
- Both classes let `Nock` and `Quiver` succeed from `Nock` and from
  `Quiver`, including re-nocking an arrow that is already nocked.

Both arrow files declare a class `ArrowBehaviour` in the same namespace,
`_Scripts.CharacterParts`, so a build contains one of them. The bow calls
`Nock(this, stringNockPoint)` (`CharacterParts/BowBehaviour.cs:232`), and
only the `CharacterParts` class has that two-argument `Nock`. The model
therefore pairs the bow and the collector with the `CharacterParts` arrow.
On the fields both classes have, their mutators agree
(`ArrowVariants.VariantsAgree`). Contacts are the exception. The
`CharacterParts` arrow sticks on a collider carrying `DamageableBehaviour`.
The hook-based arrow sticks on one carrying `DamageableObjectBehaviour`.
The two agree only when a collider carries both components or neither
(`ArrowVariants.ContactDiffersOnDamageableKind`).

## Model

| member | source | states |
|---|---|---|
| ArrowMachine.EnterFlightState | ArcheryPlatformer/Assets/_Scripts/CharacterParts/ArrowBehaviour.cs:120-126 | entering flight clears the owner and the string anchor, makes the body non-kinematic and keeps velocity, position, rotation and ignore set |
| ArrowMachine.EnterStuckState | ArcheryPlatformer/Assets/_Scripts/CharacterParts/ArrowBehaviour.cs:155-160 | entering the stuck state makes the body kinematic and zeroes its velocity; owner and anchor are kept |
| ArrowMachine.Release | ArcheryPlatformer/Assets/_Scripts/CharacterParts/ArrowBehaviour.cs:205-212 | a release is a no-op unless the arrow is nocked; from `Nock` the arrow is in flight at the given position, with the given velocity and ignore set, and has no owner and no anchor |
| ArrowMachine.Nock | ArcheryPlatformer/Assets/_Scripts/CharacterParts/ArrowBehaviour.cs:214-221 | succeeds exactly from Stuck, Nock or Quiver; a refusal changes nothing; success records owner and string anchor and sets `Nock`, body untouched |
| ArrowMachine.Quiver | ArcheryPlatformer/Assets/_Scripts/CharacterParts/ArrowBehaviour.cs:223-229 | succeeds exactly from Stuck, Nock or Quiver; success records the owner, sets `Quiver` and leaves the string anchor as it was |
| ArrowMachine.RemoveFromInventory | ArcheryPlatformer/Assets/_Scripts/CharacterParts/ArrowBehaviour.cs:231-236 | succeeds if and only if the caller is the current owner, then only the owner is cleared; otherwise nothing changes |
| ArrowMachine.OnTriggerEnterFlight | ArcheryPlatformer/Assets/_Scripts/CharacterParts/ArrowBehaviour.cs:137-144 | an ignored collider, or one carrying neither `DamageableBehaviour` nor `SurfaceBehaviour`, leaves the arrow as it is; any other collider sticks it |
| ArrowMachine.OnTriggerEnter | ArcheryPlatformer/Assets/_Scripts/CharacterParts/ArrowBehaviour.cs:88-102 | a contact changes the arrow if and only if it happens on the server, in flight, with a non-ignored collider carrying `DamageableBehaviour` or `SurfaceBehaviour`; the change is exactly entering Stuck: kinematic with zero velocity, every other field kept; an ignored collider is one whose identity is on the ignore list |
| ArrowMachine.OnUpdateNock | ArcheryPlatformer/Assets/_Scripts/CharacterParts/ArrowBehaviour.cs:189-194 | with a live anchor the arrow takes the anchor's position and rotation; without one nothing moves; state, owner, anchor, velocity, ignore list, kinematic flag and pick-up flag are never touched |
| ArrowMachine.MutatorsFollowTable | ArcheryPlatformer/Assets/_Scripts/CharacterParts/ArrowBehaviour.cs:205-229 | release, nock, quiver and a sticking contact move the state exactly as an independent transition table says, and the claims succeed exactly where the table has an entry |
| ArrowMachine.NockIdempotent | ArcheryPlatformer/Assets/_Scripts/CharacterParts/ArrowBehaviour.cs:214-221 | nocking twice with the same arguments equals nocking once |
| ArrowMachine.ClaimThenRemove | ArcheryPlatformer/Assets/_Scripts/CharacterParts/ArrowBehaviour.cs:214-236 | after a successful nock or quiver, the claiming inventory may remove the arrow and any other inventory may not |
| ArrowMachine.NockThenRelease | ArcheryPlatformer/Assets/_Scripts/CharacterParts/ArrowBehaviour.cs:205-221 | nocking a claimable arrow and releasing it leaves it in flight, unowned, unanchored, with the release's velocity and ignore set |
| ArrowMachine.ContactIdempotent | ArcheryPlatformer/Assets/_Scripts/CharacterParts/ArrowBehaviour.cs:88-102 | a second identical contact changes nothing more |
| ArrowMachine.IgnoreSetAfterRelease | ArcheryPlatformer/Assets/_Scripts/CharacterParts/ArrowBehaviour.cs:137-144 | after a release, contacts with colliders whose identity is on the given ignore list leave the arrow flying, and any other collider carrying `DamageableBehaviour` or `SurfaceBehaviour` sticks it |
| ArrowMachine.NockThenUpdate | ArcheryPlatformer/Assets/_Scripts/CharacterParts/ArrowBehaviour.cs:189-221 | an arrow nocked to a string point whose pose is known takes that pose on the next update and stays nocked to the same owner; once released, updates no longer move it |
| HookedArrow.EnterHooks | ArcheryPlatformer/Assets/_Scripts/Arrows/ArrowBehaviour.cs:146-164 | entering flight drops the owner and frees the body; entering Stuck makes it kinematic with zero velocity; Nock and Quiver have no effect |
| HookedArrow.SwitchStates | ArcheryPlatformer/Assets/_Scripts/Arrows/ArrowBehaviour.cs:124-165 | the resulting state is always the requested one, with the enter effects of that state and nothing else (the base class's exit hooks are empty) |
| HookedArrow.SwitchForgetsOrigin | ArcheryPlatformer/Assets/_Scripts/Arrows/ArrowBehaviour.cs:124-165 | two arrows that differ only in their state end up identical after switching to the same state |
| HookedArrow.Release | ArcheryPlatformer/Assets/_Scripts/Arrows/ArrowBehaviour.cs:293-300 | a no-op unless nocked; from Nock the arrow is in flight, unowned and non-kinematic, with the given position, velocity and ignore set |
| HookedArrow.PossibleHit | ArcheryPlatformer/Assets/_Scripts/Arrows/ArrowBehaviour.cs:302-322 | sticks the arrow if and only if the collider carries `DamageableObjectBehaviour` or `SurfaceBehaviour`; each hit hook runs if and only if its component is present (server-only hooks only on the server), every hook is called with this collider, and the hooks come in call order: surface before damageable, each server-only hook before its plain one |
| HookedArrow.OnTriggerEnter | ArcheryPlatformer/Assets/_Scripts/Arrows/ArrowBehaviour.cs:98-108 | nothing happens off the server, for an ignored collider or outside flight; otherwise the contact is a possible hit, and the only state change is to Stuck |
| HookedArrow.Nock | ArcheryPlatformer/Assets/_Scripts/Arrows/ArrowBehaviour.cs:324-330 | succeeds exactly from Stuck, Nock or Quiver, then sets owner and state and nothing else; a refusal changes nothing |
| HookedArrow.Quiver | ArcheryPlatformer/Assets/_Scripts/Arrows/ArrowBehaviour.cs:332-338 | succeeds exactly from Stuck, Nock or Quiver, then sets owner and state and nothing else; a refusal changes nothing |
| HookedArrow.RemoveFromInventory | ArcheryPlatformer/Assets/_Scripts/Arrows/ArrowBehaviour.cs:340-345 | succeeds if and only if the caller is the owner, then clears it; otherwise nothing changes |
| ArrowVariants.VariantsAgree | ArcheryPlatformer/Assets/_Scripts/Arrows/ArrowBehaviour.cs:293-345 | on arrows that agree on their shared fields, both classes' nock, quiver, release and remove report the same success and leave arrows that still agree; a contact does too when the collider carries both damageable components or neither |
| ArrowVariants.ContactDiffersOnDamageableKind | ArcheryPlatformer/Assets/_Scripts/Arrows/ArrowBehaviour.cs:305-310 | on the server, a flying arrow of each class touching a non-surface collider with only one of the two damageable components ends differently: only the class that looks for that component sticks |
| ArrowVariants.HookedFollowsTable | ArcheryPlatformer/Assets/_Scripts/Arrows/ArrowBehaviour.cs:293-338 | the hook-based arrow follows the same transition table as the other class |
| ArrowRegistry.Register | ArcheryPlatformer/Assets/_Scripts/Arrows/ArrowBehaviour.cs:55-58 | registering appends the arrow at the end and keeps the earlier entries |
| ArrowRegistry.Unregister | ArcheryPlatformer/Assets/_Scripts/Arrows/ArrowBehaviour.cs:59-62 | unregistering removes exactly one occurrence (multiset difference), and nothing when the arrow is not listed |
| ArrowRegistry.UnregisterKeepsOrder | ArcheryPlatformer/Assets/_Scripts/Arrows/ArrowBehaviour.cs:59-62 | the removed occurrence is the first one and the other entries keep their order |
| ArrowRegistry.RegisterThenUnregister | ArcheryPlatformer/Assets/_Scripts/Arrows/ArrowBehaviour.cs:52-63 | registering an unlisted arrow and unregistering it restores the list |
| ArrowRegistry.HostStart | ArcheryPlatformer/Assets/_Scripts/Arrows/ArrowBehaviour.cs:33-50 | on a host both start callbacks register, so the arrow is listed twice more |
| ArrowRegistry.HostDestroyLeavesStaleEntry | ArcheryPlatformer/Assets/_Scripts/Arrows/ArrowBehaviour.cs:110-113 | as written, the arrow is still listed after the host destroys it |
| ArrowRegistry.RegisterOnce | ArcheryPlatformer/Assets/_Scripts/CharacterParts/ArrowBehaviour.cs:56-67 | corrected registration: the arrow is listed afterwards, nothing else is added, and a duplicate-free list stays duplicate-free |
| ArrowRegistry.HostStartOnce | ArcheryPlatformer/Assets/_Scripts/CharacterParts/ArrowBehaviour.cs:35-54 | the corrected host start lists the arrow, adds nothing else and keeps the list duplicate-free |
| ArrowRegistry.UnregisterNoDuplicates | ArcheryPlatformer/Assets/_Scripts/CharacterParts/ArrowBehaviour.cs:63-66 | unregistering from a duplicate-free list removes the arrow entirely and keeps the list duplicate-free |
| ArrowRegistry.HostDestroyRemovesEntry | ArcheryPlatformer/Assets/_Scripts/CharacterParts/ArrowBehaviour.cs:104-107 | with the corrected start, destroying the arrow on a host removes it from the list |
| ArrowRegistry.ReplayNoDuplicates | ArcheryPlatformer/Assets/_Scripts/CharacterParts/ArrowBehaviour.cs:56-67 | any history of corrected starts and destructions keeps the list duplicate-free |
| BowController.SetDrawProgress | ArcheryPlatformer/Assets/_Scripts/CharacterParts/BowBehaviour.cs:38-42 | the stored progress is `Clamp01` of the written value: exact inside [0, 1], 0 below it, 1 above it; nothing else changes |
| BowController.Draw | ArcheryPlatformer/Assets/_Scripts/CharacterParts/BowBehaviour.cs:189-218 | a cancel resets progress, draw flag and cooldown start whatever else is pressed; drawing with an arrow past the cooldown advances by one tick's share of the draw time; progress rises only then; an arrow is let go exactly on the server when a drawn bow stops drawing, which empties the slot, and every participant resets progress and cooldown start and keeps the draw flag; only a cancel clears the draw flag; otherwise nothing changes |
| BowController.HoldDrawAccumulates | ArcheryPlatformer/Assets/_Scripts/CharacterParts/BowBehaviour.cs:197-200 | holding the draw for n ready ticks gives the progress clamped at 1 of the start plus n steps, and keeps the arrow |
| BowController.Reconcile | ArcheryPlatformer/Assets/_Scripts/CharacterParts/BowBehaviour.cs:180-185 | reconciliation sets the rotation to the snapshot's and the progress to `Clamp01` of the snapshot's, and keeps slot, flags, position, ignore list, string point and configuration |
| BowController.Snapshot | ArcheryPlatformer/Assets/_Scripts/CharacterParts/BowBehaviour.cs:162-167 | only the server produces a snapshot, holding its own progress and rotation |
| BowController.ReconcileIdempotent | ArcheryPlatformer/Assets/_Scripts/CharacterParts/BowBehaviour.cs:180-185 | applying the same snapshot twice equals applying it once |
| BowController.ReconcileAdoptsSnapshot | ArcheryPlatformer/Assets/_Scripts/CharacterParts/BowBehaviour.cs:162-185 | a predicted bow reconciled with the server's snapshot agrees with the server on progress and rotation; the server's bow is a fixed point |
| BowController.SwapArrow | ArcheryPlatformer/Assets/_Scripts/CharacterParts/BowBehaviour.cs:249-254 | the previous occupant is returned and the new one stored, nothing else changes |
| BowController.SwapBack | ArcheryPlatformer/Assets/_Scripts/CharacterParts/BowBehaviour.cs:249-254 | swapping the old occupant back restores the bow and returns the arrow that was swapped in |
| BowController.GetArrowFromInventory | ArcheryPlatformer/Assets/_Scripts/CharacterParts/BowBehaviour.cs:235-238 | whatever the index, the slot's content is returned |
| BowController.GetArrowsFromInventory | ArcheryPlatformer/Assets/_Scripts/CharacterParts/BowBehaviour.cs:256-259 | a one-element list holding the slot's content, even when the slot is empty |
| ArcheryWorld.TryAddArrowToInventory | ArcheryPlatformer/Assets/_Scripts/CharacterParts/BowBehaviour.cs:227-233 | refused with no change while the slot is full or the cooldown has not passed; otherwise the slot takes the arrow and the answer is the arrow's nock answer; when the slot is taken the arrow becomes exactly what its own `Nock` with this bow and its string point makes of it, so on success only state, owner and anchor change; no other arrow or bow changes |
| ArcheryWorld.RetryAfterRefusal | ArcheryPlatformer/Assets/_Scripts/CharacterParts/BowBehaviour.cs:227-233 | an add refused once is refused again at the same time and changes nothing more |
| ArcheryWorld.RefusedNockStillFillsSlot | ArcheryPlatformer/Assets/_Scripts/CharacterParts/BowBehaviour.cs:231-232 | offering a flying arrow to a free, ready bow is refused but still fills the slot, breaking the world invariant |
| ArcheryWorld.TryAddPreservesConsistency | ArcheryPlatformer/Assets/_Scripts/CharacterParts/BowBehaviour.cs:227-233 | adding a claimable arrow that no bow holds keeps every held arrow live, nocked and owned by its bow |
| ArcheryWorld.RemoveArrowFromInventory | ArcheryPlatformer/Assets/_Scripts/CharacterParts/BowBehaviour.cs:240-247 | an empty slot yields nothing and changes nothing; otherwise the held arrow is returned, told to leave this inventory, and the slot emptied |
| ArcheryWorld.RemovePreservesConsistency | ArcheryPlatformer/Assets/_Scripts/CharacterParts/BowBehaviour.cs:240-247 | removing keeps the world invariant |
| ArcheryWorld.AddThenRemove | ArcheryPlatformer/Assets/_Scripts/CharacterParts/BowBehaviour.cs:227-247 | after a successful add, removal returns that arrow, restores the bow and leaves the arrow nocked but unowned |
| ArcheryWorld.SwapArrow | ArcheryPlatformer/Assets/_Scripts/CharacterParts/BowBehaviour.cs:249-254 | swapping changes only the bow's slot and never calls into any arrow |
| ArcheryWorld.InventoryReadsBack | ArcheryPlatformer/Assets/_Scripts/CharacterParts/BowBehaviour.cs:227-259 | reading the bow's inventory yields the added arrow after an accepted add, nothing after a removal, and the new arrow after a swap, whose answer is what the read yielded before |
| ArcheryWorld.DrawTick | ArcheryPlatformer/Assets/_Scripts/CharacterParts/BowBehaviour.cs:201-217 | the bow moves as the draw rule says; on a server release the held arrow flies from the bow's position with the launch velocity, the shooter's colliders as ignore set, no owner or anchor, a non-kinematic body, and its rotation and pick-up flag kept; in any world the released arrow is exactly what its own `Release` makes of it; a tick that releases nothing (a cancel, an advancing draw, an idle tick, or any tick off the server) changes no arrow; no other arrow or bow changes |
| ArcheryWorld.DrawTickPreservesConsistency | ArcheryPlatformer/Assets/_Scripts/CharacterParts/BowBehaviour.cs:189-218 | a draw tick keeps the world invariant |
| ArcheryWorld.Contact | ArcheryPlatformer/Assets/_Scripts/CharacterParts/ArrowBehaviour.cs:88-102 | a contact affects only the touching arrow and no bow |
| ArcheryWorld.ContactPreservesConsistency | ArcheryPlatformer/Assets/_Scripts/CharacterParts/ArrowBehaviour.cs:88-102 | contacts keep the world invariant |
| ArcheryWorld.ShotIgnoresShooter | ArcheryPlatformer/Assets/_Scripts/CharacterParts/BowBehaviour.cs:205-206 | an arrow the server shoots passes through the shooter's own colliders |
| ArrowCollector.InventoryList | ArcheryPlatformer/Assets/_Scripts/Arrows/ArrowCollectorBehaviour.cs:15-20 | the inventory list holds the object's own inventories twice (once from `GetComponents`, once at the head of `GetComponentsInChildren`), then those of its descendants, and nothing else |
| ArrowCollector.Candidates | ArcheryPlatformer/Assets/_Scripts/Arrows/ArrowCollectorBehaviour.cs:25-31 | an arrow is a candidate if and only if it is listed, live, collectable, stuck and within range (inclusive); a duplicate-free registry gives duplicate-free candidates |
| ArrowCollector.CandidatesInOrder | ArcheryPlatformer/Assets/_Scripts/Arrows/ArrowCollectorBehaviour.cs:25-31 | candidates keep registry order: filtering a concatenation concatenates the filtered parts |
| ArrowCollector.FirstFree | ArcheryPlatformer/Assets/_Scripts/Arrows/ArrowCollectorBehaviour.cs:33 | reference: the first listed bow that is empty and past its cooldown, all earlier ones being full or cooling down |
| ArrowCollector.Offer | ArcheryPlatformer/Assets/_Scripts/Arrows/ArrowCollectorBehaviour.cs:33 | the inventory that keeps the arrow nocks it to itself and to its own string point; no taker leaves the arrows untouched; no other arrow and no unlisted inventory changes |
| ArrowCollector.OfferAsksNoFurther | ArcheryPlatformer/Assets/_Scripts/Arrows/ArrowCollectorBehaviour.cs:33 | inventories listed only after the one that kept the arrow are never asked |
| ArrowCollector.OfferGoesToFirstFree | ArcheryPlatformer/Assets/_Scripts/Arrows/ArrowCollectorBehaviour.cs:33 | a claimable arrow goes to the first free and ready inventory, and the world is then exactly what that inventory's own add makes of it; with none the world is untouched |
| ArrowCollector.OfferEffect | ArcheryPlatformer/Assets/_Scripts/Arrows/ArrowCollectorBehaviour.cs:33 | when an inventory keeps the arrow, the arrows change only by that inventory's `Nock` with its own string point |
| ArrowCollector.OfferChangesOnlySlots | ArcheryPlatformer/Assets/_Scripts/Arrows/ArrowCollectorBehaviour.cs:33 | an offer changes no bow except in its slot |
| ArrowCollector.OfferConcatKept | ArcheryPlatformer/Assets/_Scripts/Arrows/ArrowCollectorBehaviour.cs:33 | when an inventory of the first part of the list keeps the arrow, what is listed after that part changes nothing |
| ArrowCollector.OfferConcatPassed | ArcheryPlatformer/Assets/_Scripts/Arrows/ArrowCollectorBehaviour.cs:33 | when the first part of the list refuses the arrow, the offer goes on along the rest from the world the first part left |
| ArrowCollector.OfferStaysBusy | ArcheryPlatformer/Assets/_Scripts/Arrows/ArrowCollectorBehaviour.cs:33 | an offer empties no slot and restarts no cooldown; when refused everywhere, every listed bow is full or cooling down afterwards |
| ArrowCollector.OfferToSettled | ArcheryPlatformer/Assets/_Scripts/Arrows/ArrowCollectorBehaviour.cs:33 | an offer along bows that are all full or cooling down is refused and changes nothing |
| ArrowCollector.RepeatedPrefixHarmless | ArcheryPlatformer/Assets/_Scripts/Arrows/ArrowCollectorBehaviour.cs:15-33 | listing a run of inventories twice before the rest leaves the same world and the same keeping inventory as listing it once |
| ArrowCollector.OfferAll | ArcheryPlatformer/Assets/_Scripts/Arrows/ArrowCollectorBehaviour.cs:31-34 | arrows that are not candidates and bows that are not listed are untouched |
| ArrowCollector.Scan | ArcheryPlatformer/Assets/_Scripts/Arrows/ArrowCollectorBehaviour.cs:22-36 | nothing happens off the server; arrows that are not eligible (in flight, nocked, quivered, out of range or not collectable) or not registered are never changed |
| ArrowCollector.OfferAllConcat | ArcheryPlatformer/Assets/_Scripts/Arrows/ArrowCollectorBehaviour.cs:31-34 | offering a concatenation of candidates is offering the first part, then the second to the world the first left |
| ArrowCollector.ScanInRegistryOrder | ArcheryPlatformer/Assets/_Scripts/Arrows/ArrowCollectorBehaviour.cs:25-34 | a scan of a concatenated registry is the scan of the first part followed by offers of the second part's candidates, chosen before the scan began |
| ArrowCollector.OfferAllKeepsTaken | ArcheryPlatformer/Assets/_Scripts/Arrows/ArrowCollectorBehaviour.cs:31-34 | an arrow on the string of a listed inventory stays on the string of a listed inventory |
| ArrowCollector.OfferAllExhaustive | ArcheryPlatformer/Assets/_Scripts/Arrows/ArrowCollectorBehaviour.cs:31-34 | each stuck candidate ends on the string of a listed inventory, or is left exactly as it was with every listed bow full or cooling down |
| ArrowCollector.ScanIsExhaustive | ArcheryPlatformer/Assets/_Scripts/Arrows/ArrowCollectorBehaviour.cs:22-36 | after a server scan an eligible registered arrow is taken by a listed inventory, or untouched with no listed inventory free and ready; so an eligible arrow left stuck means no bow could take it |
| ArrowCollector.OfferAllRepeatedPrefix | ArcheryPlatformer/Assets/_Scripts/Arrows/ArrowCollectorBehaviour.cs:31-34 | listing a run of inventories twice changes no sequence of offers |
| ArrowCollector.ScanThroughInventoryList | ArcheryPlatformer/Assets/_Scripts/Arrows/ArrowCollectorBehaviour.cs:15-36 | the scan with the collector's inventory list equals the scan with each inventory listed once |
| ArrowCollector.OfferAllPreservesConsistency | ArcheryPlatformer/Assets/_Scripts/Arrows/ArrowCollectorBehaviour.cs:31-34 | offering distinct stuck arrows keeps the world invariant |
| ArrowCollector.OfferPreservesConsistency | ArcheryPlatformer/Assets/_Scripts/Arrows/ArrowCollectorBehaviour.cs:33 | offering one stuck arrow keeps the world invariant |
| ArrowCollector.ScanPreservesConsistency | ArcheryPlatformer/Assets/_Scripts/Arrows/ArrowCollectorBehaviour.cs:22-36 | a scan over a duplicate-free registry keeps the world invariant, so no arrow ends up in two bows |
| ArrowCollector.DuplicateEntryIsTakenTwice | ArcheryPlatformer/Assets/_Scripts/Arrows/ArrowCollectorBehaviour.cs:25-34 | an arrow listed twice is offered twice in one scan and ends up in two bows' slots, breaking the world invariant |
| Health.SetHealth | ArcheryPlatformer/Assets/_Scripts/Character/DamageableObjectBehaviour.cs:17-21 | every write lands in [0, maxHealth], exact inside it, 0 below it and maxHealth above it |
| Health.StartServer | ArcheryPlatformer/Assets/_Scripts/Character/DamageableObjectBehaviour.cs:38-42 | on server start health equals maxHealth |
| Health.Damage | ArcheryPlatformer/Assets/_Scripts/Character/DamageableObjectBehaviour.cs:44-53 | a zero amount changes nothing and raises nothing; otherwise health becomes the clamped difference and the events are exactly [damage, health-change], or [damage, health-change, death] when no health is left |
| Health.Heal | ArcheryPlatformer/Assets/_Scripts/Character/DamageableObjectBehaviour.cs:55-61 | a zero amount changes nothing; otherwise health becomes the clamped sum and heal then health-change are raised; never death |
| Health.RunStaysInRange | ArcheryPlatformer/Assets/_Scripts/Character/DamageableObjectBehaviour.cs:17-21 | any sequence of damage and heal calls keeps health in [0, maxHealth] |
| Health.StartedStaysInRange | ArcheryPlatformer/Assets/_Scripts/Character/DamageableObjectBehaviour.cs:38-42 | after server start, health stays in range through any calls, whatever it was before |
| Health.HealUndoesDamage | ArcheryPlatformer/Assets/_Scripts/Character/DamageableObjectBehaviour.cs:44-61 | healing back a damage that neither clamped nor killed restores the damageable, with the four notifications in order |
| Health.DeathRepeats | ArcheryPlatformer/Assets/_Scripts/Character/DamageableObjectBehaviour.cs:50-52 | at zero health every positive hit raises death again |
| Health.DeathTwice | ArcheryPlatformer/Assets/_Scripts/Character/DamageableObjectBehaviour.cs:44-53 | a 10/10 damageable dies from a hit of 15 and raises death again on a hit of 5 |
| Health.DamageLoss | ArcheryPlatformer/Assets/_Scripts/Character/DamageableObjectBehaviour.cs:44-53 | the health lost to a hit is between 0 and the amount, and at most what was left |
| LegacyHealth.Damage | ArcheryPlatformer/Assets/_Scripts/DamageableObjectBehaviour.cs:19-25 | health becomes the clamped difference, with no zero-amount guard; death, the only notification, is raised exactly when no health is left |
| LegacyHealth.Heal | ArcheryPlatformer/Assets/_Scripts/DamageableObjectBehaviour.cs:27-30 | health becomes the clamped sum, in range; nothing is raised |
| LegacyHealth.AgreesWithNetworked | ArcheryPlatformer/Assets/_Scripts/DamageableObjectBehaviour.cs:19-30 | for non-zero amounts both variants leave the same health and raise death together |
| LegacyHealth.ZeroHitAtZeroHealth | ArcheryPlatformer/Assets/_Scripts/DamageableObjectBehaviour.cs:19-25 | at zero health a zero hit raises death in the older variant and nothing in the networked one |
| LegacyHealth.ZeroAmountKeepsHealth | ArcheryPlatformer/Assets/_Scripts/DamageableObjectBehaviour.cs:19-30 | on a damageable in range a zero damage or heal leaves health unchanged |
| TickSubscription.Detach | ArcheryPlatformer/Assets/_Scripts/Utils/TimedNetworkBehaviour.cs:28-29 | removing a handler takes one attachment away, and removing one that is not attached does nothing |
| TickSubscription.SubscribeToTimeManager | ArcheryPlatformer/Assets/_Scripts/Utils/TimedNetworkBehaviour.cs:12-31 | without a time manager or with an unchanged request nothing happens; otherwise the flag takes the request; the tick and the post-tick handler are each attached once on a false-to-true change and each detached once on a true-to-false change, and at no other time; a balanced component stays balanced |
| TickSubscription.SubscribeIdempotent | ArcheryPlatformer/Assets/_Scripts/Utils/TimedNetworkBehaviour.cs:17-18 | the same request twice equals it once |
| TickSubscription.SubscribeThenUnsubscribe | ArcheryPlatformer/Assets/_Scripts/Utils/TimedNetworkBehaviour.cs:21-30 | subscribing then unsubscribing ends where unsubscribing alone ends |
| TickSubscription.FreshReplay | ArcheryPlatformer/Assets/_Scripts/Utils/TimedNetworkBehaviour.cs:10-31 | a fresh component, unsubscribed, after any calls is subscribed exactly when the last call that found a time manager asked for it, with each handler attached once then and not at all otherwise |
| TickSubscription.ReplayFollowsLastRequest | ArcheryPlatformer/Assets/_Scripts/Utils/TimedNetworkBehaviour.cs:12-31 | after any calls the flag is the last request that found a time manager, and each handler is attached once if subscribed and not at all otherwise |

## Left out

- Aim and flight rotation (`Aim`, `OnUpdateFlight`, `OnFlightUpdateServerOnly`): trigonometry and interpolation of floats, cosmetic.
- The launch velocity, computed from an animation curve and the bow's speed: it is an opaque argument of `ArcheryWorld.DrawTick`.
- Floating-point rounding: all scalars are mathematical reals.
- The prediction machinery behind `Act`, `[Replicate]` and `[Reconcile]`: replays are performed by the networking library, which is not part of this model. Only the bow's reconciliation overwrite and the server's snapshot are modelled, and `TimeManager_OnTick` is not.
- Object destruction and Unity's null semantics for destroyed objects: arrows and bows are entries of maps. The registry is modelled as a list of identities.
- The live-arrow list before the first registration: `_all` has no initializer (`CharacterParts/ArrowBehaviour.cs:16`) and is created by the first `RegisterArrow` (line 58). Until then `All.FindAll` in the collector (`Arrows/ArrowCollectorBehaviour.cs:25`) throws on every server frame. The model's registry is always a list, so a scan over an empty registry changes nothing.
- The collector's last filter conjunct, `transform.parent != transform`: it holds for every object, so it is left out.
- `CanBePickedUp`: no shown code defines or writes it, so it is an opaque field of the arrow.
- The hit hooks' reactions (damage dealt by arrow subclasses, knockback): the base hooks are empty and the subclasses' overrides do not match the base signature. `HookedArrow.PossibleHit` records which hooks run.
- Health notifications to listeners: events are returned as lists, and the listeners themselves are not modelled.
- Movement controllers, input bindings, ownership callbacks, RPCs and lifecycle plumbing other than the registry and the subscription: physics and engine plumbing.
- BowController.Draw: the bow's draw time is assumed positive (a zero draw time divides by zero in the engine's floats).
- ArcheryWorld.TryAddArrowToInventory: requires a live arrow and a live bow. A null arrow would throw in the source.
- ArrowMachine.OnUpdateNock: models only the nock handler; the per-frame dispatch to the other states' handlers is left out, since the stuck and quiver handlers are empty and the flight handler is rotation only.
- Health.Damage: its if-and-only-if about death in terms of the amount needs a positive maximum. With a maximum of zero every non-zero hit kills, and the other clauses cover that case.

## Findings

| source | as written | input that shows it | evidently intended | confidence | as-written member | corrected member |
|---|---|---|---|---|---|---|
| ArcheryPlatformer/Assets/_Scripts/Arrows/ArrowBehaviour.cs:33-50 | both `OnStartClient` and `OnStartServer` call `RegisterArrow(true)`, so on a host the arrow is listed twice; `OnDestroy` removes only one entry (the same holds in `CharacterParts/ArrowBehaviour.cs:35-54`) | a host spawns arrow 7 into an empty registry: the list is [7, 7]; after destruction it is still [7]. While alive, a scan offers arrow 7 twice, and two free bows both end up holding it | each arrow listed once while alive and not at all after destruction | not executed | ArrowRegistry.HostDestroyLeavesStaleEntry | ArrowRegistry.HostDestroyRemovesEntry |

=== FILE: archery_world.dfy ===
/**
 Arrows and bows together. `BowBehaviour` implements the inventory
 interface (`TryAddArrowToInventory`, `RemoveArrowFromInventory`,
 `SwapArrow`) by calling into the arrow state machine, and its draw rule
 releases the held arrow; those cross-object effects are stated here over a
 world of live arrows and bows, each keyed by its identity.
 */
module ArcheryWorld {
  import opened Common
  import A = ArrowMachine
  import opened BowController

  datatype World = World(arrows: map<ArrowId, A.Arrow>, bows: map<InventoryId, Bow>)

  /**
   Every arrow a bow holds is live, on the string and owned by that very
   bow. The draw rule, the inventory calls and the collector scan keep this.
   */
  predicate Consistent(w: World) {
    forall b | b in w.bows && w.bows[b].slot.Some? ::
      && w.bows[b].slot.value in w.arrows
      && w.arrows[w.bows[b].slot.value].state == ArrowState.Nock
      && w.arrows[w.bows[b].slot.value].owner == Some(b)
  }

  /** No bow holds the arrow. */
  predicate Unheld(w: World, arrow: ArrowId) {
    forall b | b in w.bows :: w.bows[b].slot != Some(arrow)
  }

  /** In a consistent world an arrow sits in at most one bow. */
  lemma HeldByAtMostOne(w: World, b1: InventoryId, b2: InventoryId)
    requires Consistent(w)
    requires b1 in w.bows && b2 in w.bows && w.bows[b1].slot.Some? && w.bows[b1].slot == w.bows[b2].slot
    ensures b1 == b2
  {
    assert w.arrows[w.bows[b1].slot.value].owner == Some(b1);
  }

  /** In a consistent world an arrow that is not on a string is in no bow. */
  lemma UnnockedIsUnheld(w: World, arrow: ArrowId)
    requires Consistent(w) && arrow in w.arrows && w.arrows[arrow].state != ArrowState.Nock
    ensures Unheld(w, arrow)
  {
  }

  datatype Added = Added(ok: bool, world: World)

  /**
   `TryAddArrowToInventory`: refused while the slot is full or the re-draw
   cooldown runs; otherwise the slot takes the arrow and the answer is what
   the arrow's `Nock` answers. A refused `Nock` does not empty the slot again.
   */
  function TryAddArrowToInventory(w: World, bow: InventoryId, arrow: ArrowId, now: real): (r: Added)
    requires bow in w.bows && arrow in w.arrows
    ensures r.world.arrows.Keys == w.arrows.Keys && r.world.bows.Keys == w.bows.Keys
    ensures w.bows[bow].slot.Some? || !Ready(w.bows[bow], now) ==> r == Added(false, w)
    ensures w.bows[bow].slot.None? && Ready(w.bows[bow], now) ==>
      && r.world.bows == w.bows[bow := w.bows[bow].(slot := Some(arrow))]
      && (r.ok <==> Claimable(w.arrows[arrow].state))
    ensures r.ok ==>
      && r.world.arrows[arrow].state == ArrowState.Nock && r.world.arrows[arrow].owner == Some(bow)
      && r.world.arrows[arrow].anchor == w.bows[bow].stringNockPoint
      && r.world.bows[bow].slot == Some(arrow)
    // the arrow is exactly what its own `Nock` makes of it, with the bow's string point
    ensures w.bows[bow].slot.None? && Ready(w.bows[bow], now) ==>
      r.world.arrows[arrow] == A.Nock(w.arrows[arrow], bow, w.bows[bow].stringNockPoint).arrow
    ensures r.ok ==>
      && A.SameBody(w.arrows[arrow], r.world.arrows[arrow])
      && r.world.arrows[arrow].velocity == w.arrows[arrow].velocity
      && r.world.arrows[arrow].kinematic == w.arrows[arrow].kinematic
    ensures !r.ok ==> r.world.arrows == w.arrows
    ensures forall x | x in w.arrows && x != arrow :: r.world.arrows[x] == w.arrows[x]
    ensures forall b | b in w.bows && b != bow :: r.world.bows[b] == w.bows[b]
  {
    var b := w.bows[bow];
    if b.slot.Some? || b.lastCancelOrRelease + b.config.cooldown >= now then Added(false, w)
    else
      var nocked := A.Nock(w.arrows[arrow], bow, b.stringNockPoint);
      Added(nocked.ok, World(w.arrows[arrow := nocked.arrow], w.bows[bow := b.(slot := Some(arrow))]))
  }

  /**
   A refused add, offered again at the same time, is refused again and
   changes nothing more: retrying an inventory is harmless.
   */
  lemma RetryAfterRefusal(w: World, bow: InventoryId, arrow: ArrowId, now: real)
    requires bow in w.bows && arrow in w.arrows
    requires !TryAddArrowToInventory(w, bow, arrow, now).ok
    ensures var w1 := TryAddArrowToInventory(w, bow, arrow, now).world;
      TryAddArrowToInventory(w1, bow, arrow, now) == Added(false, w1)
  {
  }

  /**
   Without the roll-back: offering an arrow in flight to a free, ready bow
   is refused, yet the bow's slot now names that arrow, which is not owned
   by the bow, so the world is no longer consistent.
   */
  lemma RefusedNockStillFillsSlot(w: World, bow: InventoryId, arrow: ArrowId, now: real)
    requires bow in w.bows && arrow in w.arrows
    requires w.bows[bow].slot.None? && Ready(w.bows[bow], now)
    requires w.arrows[arrow].state == Flight
    ensures var r := TryAddArrowToInventory(w, bow, arrow, now);
      !r.ok && r.world.bows[bow].slot == Some(arrow) && !Consistent(r.world)
  {
    var r := TryAddArrowToInventory(w, bow, arrow, now);
    assert r.world.arrows[arrow].state == Flight;
  }

  /** Adding an arrow that can be claimed and is in no bow keeps the world consistent. */
  lemma TryAddPreservesConsistency(w: World, bow: InventoryId, arrow: ArrowId, now: real)
    requires bow in w.bows && arrow in w.arrows
    requires Consistent(w) && Claimable(w.arrows[arrow].state) && Unheld(w, arrow)
    ensures Consistent(TryAddArrowToInventory(w, bow, arrow, now).world)
  {
    var r := TryAddArrowToInventory(w, bow, arrow, now).world;
    forall b | b in r.bows && r.bows[b].slot.Some?
      ensures r.bows[b].slot.value in r.arrows
      ensures r.arrows[r.bows[b].slot.value].state == ArrowState.Nock
      ensures r.arrows[r.bows[b].slot.value].owner == Some(b)
    {
      if b != bow && r != w {
        assert r.bows[b] == w.bows[b];
        assert w.bows[b].slot != Some(arrow);
      }
    }
  }

  datatype Removed = Removed(arrow: Option<ArrowId>, world: World)

  /**
   `RemoveArrowFromInventory`: an empty slot yields nothing; otherwise the
   held arrow is handed back, told to leave this inventory, and the slot is
   emptied. The arrow's own answer is not consulted.
   */
  function RemoveArrowFromInventory(w: World, bow: InventoryId): (r: Removed)
    requires bow in w.bows
    ensures w.bows[bow].slot.None? ==> r == Removed(None, w)
    ensures r.arrow == w.bows[bow].slot
    ensures r.world.bows == w.bows[bow := w.bows[bow].(slot := None)]
    ensures r.arrow.Some? && r.arrow.value in w.arrows ==>
      r.world.arrows == w.arrows[r.arrow.value := A.RemoveFromInventory(w.arrows[r.arrow.value], bow).arrow]
    ensures r.world.arrows.Keys == w.arrows.Keys
  {
    var b := w.bows[bow];
    if b.slot.None? then Removed(None, w)
    else
      var t := b.slot.value;
      var arrows := if t in w.arrows then w.arrows[t := A.RemoveFromInventory(w.arrows[t], bow).arrow] else w.arrows;
      Removed(Some(t), World(arrows, w.bows[bow := b.(slot := None)]))
  }

  /** Removing the held arrow keeps the world consistent. */
  lemma RemovePreservesConsistency(w: World, bow: InventoryId)
    requires bow in w.bows && Consistent(w)
    ensures Consistent(RemoveArrowFromInventory(w, bow).world)
  {
    var r := RemoveArrowFromInventory(w, bow).world;
    forall b | b in r.bows && r.bows[b].slot.Some?
      ensures r.bows[b].slot.value in r.arrows
      ensures r.arrows[r.bows[b].slot.value].state == ArrowState.Nock
      ensures r.arrows[r.bows[b].slot.value].owner == Some(b)
    {
      if w.bows[bow].slot.Some? {
        HeldByAtMostOneSlot(w, bow, b);
      }
    }
  }

  /** A bow other than the one holding an arrow does not hold it. */
  lemma HeldByAtMostOneSlot(w: World, bow: InventoryId, b: InventoryId)
    requires Consistent(w) && bow in w.bows && b in w.bows && b != bow && w.bows[bow].slot.Some?
    ensures w.bows[b].slot != w.bows[bow].slot
  {
    if w.bows[b].slot == w.bows[bow].slot {
      HeldByAtMostOne(w, b, bow);
    }
  }

  /**
   Add then remove: the arrow the bow accepted is the one it hands back; the
   slot is empty again and the arrow, still on the string, has no owner.
   */
  lemma AddThenRemove(w: World, bow: InventoryId, arrow: ArrowId, now: real)
    requires bow in w.bows && arrow in w.arrows
    requires TryAddArrowToInventory(w, bow, arrow, now).ok
    ensures var r := RemoveArrowFromInventory(TryAddArrowToInventory(w, bow, arrow, now).world, bow);
      && r.arrow == Some(arrow)
      && r.world.bows[bow] == w.bows[bow]
      && r.world.arrows[arrow].owner == None
      && r.world.arrows[arrow].state == ArrowState.Nock
  {
  }

  /** `SwapArrow` on the world: the slot changes, no arrow is touched. */
  function SwapArrow(w: World, bow: InventoryId, newArrow: Option<ArrowId>): (r: Removed)
    requires bow in w.bows
    ensures r.arrow == w.bows[bow].slot
    ensures r.world.arrows == w.arrows
    ensures r.world.bows == w.bows[bow := w.bows[bow].(slot := newArrow)]
  {
    var swapped := BowController.SwapArrow(w.bows[bow], newArrow);
    Removed(swapped.0, World(w.arrows, w.bows[bow := swapped.1]))
  }

  /**
   Reading the inventory back: after an accepted add it yields the added
   arrow, after a removal nothing, and after a swap the arrow swapped in,
   while the swap hands out what the read yielded before.
   */
  lemma InventoryReadsBack(w: World, bow: InventoryId, arrow: ArrowId, newArrow: Option<ArrowId>,
                           now: real, index: int)
    requires bow in w.bows && arrow in w.arrows
    ensures TryAddArrowToInventory(w, bow, arrow, now).ok ==>
      var b := TryAddArrowToInventory(w, bow, arrow, now).world.bows[bow];
      GetArrowFromInventory(b, index) == Some(arrow) && GetArrowsFromInventory(b) == [Some(arrow)]
    ensures var b := RemoveArrowFromInventory(w, bow).world.bows[bow];
      GetArrowFromInventory(b, index) == None && GetArrowsFromInventory(b) == [None]
    ensures var s := SwapArrow(w, bow, newArrow);
      GetArrowFromInventory(s.world.bows[bow], index) == newArrow
      && s.arrow == GetArrowFromInventory(w.bows[bow], index)
  {
  }

  /** Every bow holds a draw progress in [0, 1]. */
  predicate ValidBows(w: World) {
    forall b | b in w.bows :: ValidBow(w.bows[b])
  }

  /**
   One draw tick of a bow. On the server a release hands the held arrow to
   `Release` at the bow's position, with the launch `velocity` and the
   shooter's colliders as its ignore set.
   */
  function DrawTick(w: World, bow: InventoryId, data: InputData, isServer: bool,
                    now: real, tickDelta: real, velocity: Vec2): (r: World)
    requires bow in w.bows && ValidBow(w.bows[bow])
    ensures r.arrows.Keys == w.arrows.Keys && r.bows.Keys == w.bows.Keys
    ensures ValidBows(w) ==> ValidBows(r)
    ensures r.bows[bow] == Draw(w.bows[bow], data, isServer, now, tickDelta).bow
    ensures forall b | b in w.bows && b != bow :: r.bows[b] == w.bows[b]
    ensures !isServer ==> r.arrows == w.arrows
    // only a release touches an arrow
    ensures Draw(w.bows[bow], data, isServer, now, tickDelta).released.None? ==> r.arrows == w.arrows
    ensures forall x | x in w.arrows && Some(x) != w.bows[bow].slot :: r.arrows[x] == w.arrows[x]
    ensures Consistent(w) && Draw(w.bows[bow], data, isServer, now, tickDelta).released.Some? ==>
      var x := w.bows[bow].slot.value;
      && r.arrows[x].state == Flight && r.arrows[x].owner == None && r.arrows[x].anchor == None
      && r.arrows[x].velocity == velocity && r.arrows[x].ignored == w.bows[bow].ignored
      && r.arrows[x].position == w.bows[bow].position && !r.arrows[x].kinematic
      && r.arrows[x].rotation == w.arrows[x].rotation && r.arrows[x].canBePickedUp == w.arrows[x].canBePickedUp
    // in any world, the released arrow, if live, is what its own `Release` makes of it
    ensures Draw(w.bows[bow], data, isServer, now, tickDelta).released.Some? && w.bows[bow].slot.value in w.arrows ==>
      var x := w.bows[bow].slot.value;
      r.arrows[x] == A.Release(w.arrows[x], w.bows[bow].position, velocity, w.bows[bow].ignored)
  {
    var b := w.bows[bow];
    var d := Draw(b, data, isServer, now, tickDelta);
    var arrows :=
      if d.released.Some? && d.released.value in w.arrows then
        w.arrows[d.released.value := A.Release(w.arrows[d.released.value], b.position, velocity, b.ignored)]
      else w.arrows;
    World(arrows, w.bows[bow := d.bow])
  }

  /** A draw tick keeps the world consistent. */
  lemma DrawTickPreservesConsistency(w: World, bow: InventoryId, data: InputData, isServer: bool,
                                     now: real, tickDelta: real, velocity: Vec2)
    requires bow in w.bows && ValidBow(w.bows[bow]) && Consistent(w)
    ensures Consistent(DrawTick(w, bow, data, isServer, now, tickDelta, velocity))
  {
    var r := DrawTick(w, bow, data, isServer, now, tickDelta, velocity);
    forall b | b in r.bows && r.bows[b].slot.Some?
      ensures r.bows[b].slot.value in r.arrows
      ensures r.arrows[r.bows[b].slot.value].state == ArrowState.Nock
      ensures r.arrows[r.bows[b].slot.value].owner == Some(b)
    {
      if b != bow && w.bows[bow].slot.Some? {
        HeldByAtMostOneSlot(w, bow, b);
      }
    }
  }

  /** A trigger contact of one arrow, as the engine reports it. */
  function Contact(w: World, arrow: ArrowId, other: Collider, isServer: bool): (r: World)
    requires arrow in w.arrows
    ensures r.bows == w.bows && r.arrows.Keys == w.arrows.Keys
    ensures r.arrows == w.arrows[arrow := A.OnTriggerEnter(w.arrows[arrow], other, isServer)]
  {
    World(w.arrows[arrow := A.OnTriggerEnter(w.arrows[arrow], other, isServer)], w.bows)
  }

  /** Contacts only affect arrows in flight, which no bow holds: consistency is kept. */
  lemma ContactPreservesConsistency(w: World, arrow: ArrowId, other: Collider, isServer: bool)
    requires arrow in w.arrows && Consistent(w)
    ensures Consistent(Contact(w, arrow, other, isServer))
  {
    var r := Contact(w, arrow, other, isServer);
    forall b | b in r.bows && r.bows[b].slot.Some?
      ensures r.bows[b].slot.value in r.arrows
      ensures r.arrows[r.bows[b].slot.value].state == ArrowState.Nock
      ensures r.arrows[r.bows[b].slot.value].owner == Some(b)
    {
    }
  }

  /**
   An arrow the server shoots passes through the shooter's own colliders:
   a contact with any of them leaves it in flight.
   */
  lemma ShotIgnoresShooter(w: World, bow: InventoryId, data: InputData, now: real, tickDelta: real,
                           velocity: Vec2, own: Collider)
    requires bow in w.bows && ValidBow(w.bows[bow]) && Consistent(w)
    requires Draw(w.bows[bow], data, true, now, tickDelta).released.Some?
    requires own.id in Ids(w.bows[bow].ignored)
    ensures var x := w.bows[bow].slot.value;
      var shot := DrawTick(w, bow, data, true, now, tickDelta, velocity);
      Contact(shot, x, own, true) == shot
  {
    var x := w.bows[bow].slot.value;
    var shot := DrawTick(w, bow, data, true, now, tickDelta, velocity);
    assert shot.arrows[x := shot.arrows[x]] == shot.arrows;
  }
}

=== FILE: arrow_collector.dfy ===
/**
 The collector of `Arrows/ArrowCollectorBehaviour.cs`: once per frame, on
 the server, it picks from the live-arrow registry the arrows that may be
 picked up, are stuck and lie within range, and offers each in registry
 order to its inventories in list order; the first inventory that accepts
 keeps the arrow.
 */
module ArrowCollector {
  import opened Common
  import A = ArrowMachine
  import opened BowController
  import opened ArcheryWorld

  /**
   `Vector2.Distance(p, q) <= range`: the positions are projected on the
   plane (z dropped) and distances compared squared, so no square root is
   needed; a negative range admits nothing.
   */
  predicate WithinRange(p: Vec3, q: Vec3, range: real) {
    range >= 0.0 && (p.x - q.x) * (p.x - q.x) + (p.y - q.y) * (p.y - q.y) <= range * range
  }

  /** The filter of the scan. */
  predicate Eligible(a: A.Arrow, at: Vec3, range: real) {
    a.canBePickedUp && a.state == Stuck && WithinRange(a.position, at, range)
  }

  /**
   The collector's inventories: `GetComponents` on the collector, then
   `GetComponentsInChildren`, which starts with the collector's own
   components again before those of its descendants. Each own inventory is
   therefore listed twice; `RepeatedPrefixHarmless` shows the repeat
   changes no offer.
   */
  function InventoryList(own: seq<InventoryId>, descendants: seq<InventoryId>): (r: seq<InventoryId>)
    ensures |r| == 2 * |own| + |descendants|
    ensures r[..|own|] == own && r[|own|..2 * |own|] == own && r[2 * |own|..] == descendants
    ensures forall b :: b in r <==> b in own || b in descendants
  {
    own + own + descendants
  }

  /** The candidates of one scan, in registry order, computed before any offer. */
  function Candidates(w: World, registry: seq<ArrowId>, at: Vec3, range: real): (r: seq<ArrowId>)
    ensures forall x :: x in r <==> x in registry && x in w.arrows && Eligible(w.arrows[x], at, range)
    ensures |r| <= |registry|
    ensures NoDuplicates(registry) ==> NoDuplicates(r)
    decreases |registry|
  {
    if |registry| == 0 then []
    else
      var rest := Candidates(w, registry[1..], at, range);
      NoDuplicatesTail(registry);
      if registry[0] in w.arrows && Eligible(w.arrows[registry[0]], at, range) then
        NoDuplicatesCons(registry[0], rest);
        [registry[0]] + rest
      else
        rest
  }

  /** Filtering respects registry order: the candidates of a concatenation concatenate. */
  lemma {:induction false} CandidatesInOrder(w: World, r1: seq<ArrowId>, r2: seq<ArrowId>, at: Vec3, range: real)
    ensures Candidates(w, r1 + r2, at, range) == Candidates(w, r1, at, range) + Candidates(w, r2, at, range)
    decreases |r1|
  {
    if |r1| > 0 {
      assert (r1 + r2)[1..] == r1[1..] + r2;
      CandidatesInOrder(w, r1[1..], r2, at, range);
    } else {
      assert r1 + r2 == r2;
    }
  }

  /** All the listed inventories are bows of the world. */
  predicate AllBows(w: World, invs: seq<InventoryId>) {
    forall i | 0 <= i < |invs| :: invs[i] in w.bows
  }

  lemma AllBowsTail(w: World, invs: seq<InventoryId>)
    requires |invs| > 0 && AllBows(w, invs)
    ensures AllBows(w, invs[1..])
  {
    forall i | 0 <= i < |invs[1..]| ensures invs[1..][i] in w.bows {
      assert invs[1..][i] == invs[i + 1];
    }
  }

  /** An index into a list, moved `n` places further on. */
  function Shift(t: Option<nat>, n: nat): (r: Option<nat>)
    ensures r.None? <==> t.None?
    ensures t.Some? ==> r.value == t.value + n
  {
    match t
    case None => None
    case Some(k) => Some(k + n)
  }

  /** The first inventory whose bow is empty and past its cooldown, as an index. */
  function FirstFree(w: World, invs: seq<InventoryId>, now: real): (r: Option<nat>)
    requires AllBows(w, invs)
    ensures r.Some? ==> r.value < |invs| && w.bows[invs[r.value]].slot.None? && Ready(w.bows[invs[r.value]], now)
    ensures forall j | 0 <= j < |invs| && (r.None? || j < r.value) ::
      w.bows[invs[j]].slot.Some? || !Ready(w.bows[invs[j]], now)
    decreases |invs|
  {
    if |invs| == 0 then None
    else if w.bows[invs[0]].slot.None? && Ready(w.bows[invs[0]], now) then Some(0)
    else Shift(FirstFree(w, invs[1..], now), 1)
  }

  /** The outcome of offering one arrow: the new world and the index of the inventory that kept it. */
  datatype Offered = Offered(world: World, taker: Option<nat>)

  /**
   `_inventories.Find(inventory => inventory.TryAddArrowToInventory(arrow))`:
   try the inventories in order and stop at the first that accepts.
   */
  function Offer(w: World, arrow: ArrowId, invs: seq<InventoryId>, now: real): (r: Offered)
    requires arrow in w.arrows && AllBows(w, invs)
    ensures r.world.arrows.Keys == w.arrows.Keys && r.world.bows.Keys == w.bows.Keys
    ensures r.taker.Some? ==>
      && r.taker.value < |invs|
      && r.world.bows[invs[r.taker.value]].slot == Some(arrow)
      && r.world.arrows[arrow].state == ArrowState.Nock
      && r.world.arrows[arrow].owner == Some(invs[r.taker.value])
      && r.world.arrows[arrow].anchor == w.bows[invs[r.taker.value]].stringNockPoint
    ensures r.taker.None? ==> r.world.arrows == w.arrows
    ensures forall x | x in w.arrows && x != arrow :: r.world.arrows[x] == w.arrows[x]
    ensures forall b | b in w.bows && b !in invs :: r.world.bows[b] == w.bows[b]
    decreases |invs|
  {
    if |invs| == 0 then Offered(w, None)
    else
      var t := TryAddArrowToInventory(w, invs[0], arrow, now);
      if t.ok then Offered(t.world, Some(0))
      else
        var rest := Offer(t.world, arrow, invs[1..], now);
        assert forall b | b in invs[1..] :: b in invs;
        assert rest.taker.Some? ==> invs[1..][rest.taker.value] == invs[rest.taker.value + 1];
        Offered(rest.world, Shift(rest.taker, 1))
  }

  /**
   An offer that is kept changes the arrows only by the taker's own `Nock`,
   with the taker's string point.
   */
  lemma {:induction false} OfferEffect(w: World, arrow: ArrowId, invs: seq<InventoryId>, now: real)
    requires arrow in w.arrows && AllBows(w, invs)
    ensures var r := Offer(w, arrow, invs, now);
      r.taker.Some? ==>
        r.world.arrows == w.arrows[arrow := A.Nock(w.arrows[arrow], invs[r.taker.value],
                                                   w.bows[invs[r.taker.value]].stringNockPoint).arrow]
    decreases |invs|
  {
    if |invs| > 0 {
      var t := TryAddArrowToInventory(w, invs[0], arrow, now);
      if !t.ok {
        assert t.world.arrows == w.arrows;
        AllBowsTail(w, invs);
        OfferEffect(t.world, arrow, invs[1..], now);
        var rest := Offer(t.world, arrow, invs[1..], now);
        if rest.taker.Some? {
          var k := rest.taker.value;
          assert invs[1..][k] == invs[k + 1];
          assert t.world.bows[invs[k + 1]].stringNockPoint == w.bows[invs[k + 1]].stringNockPoint;
        }
      }
    }
  }

  /** An offer changes no bow but in its slot. */
  lemma {:induction false} OfferChangesOnlySlots(w: World, arrow: ArrowId, invs: seq<InventoryId>, now: real)
    requires arrow in w.arrows && AllBows(w, invs)
    ensures var r := Offer(w, arrow, invs, now);
      forall b | b in w.bows :: r.world.bows[b] == w.bows[b].(slot := r.world.bows[b].slot)
    decreases |invs|
  {
    if |invs| > 0 {
      var t := TryAddArrowToInventory(w, invs[0], arrow, now);
      if !t.ok {
        AllBowsTail(w, invs);
        OfferChangesOnlySlots(t.world, arrow, invs[1..], now);
      }
    }
  }

  /** Inventories listed only after the one that kept the arrow are never asked. */
  lemma {:induction false} OfferAsksNoFurther(w: World, arrow: ArrowId, invs: seq<InventoryId>, now: real)
    requires arrow in w.arrows && AllBows(w, invs)
    ensures var r := Offer(w, arrow, invs, now);
      r.taker.Some? ==> forall b | b in w.bows && b !in invs[..r.taker.value + 1] :: r.world.bows[b] == w.bows[b]
    decreases |invs|
  {
    if |invs| > 0 {
      var t := TryAddArrowToInventory(w, invs[0], arrow, now);
      if !t.ok {
        OfferAsksNoFurther(t.world, arrow, invs[1..], now);
        var rest := Offer(t.world, arrow, invs[1..], now);
        if rest.taker.Some? {
          var k := rest.taker.value;
          PrefixOfTail(invs, k);
          forall b | b in w.bows && b !in invs[..k + 2] ensures rest.world.bows[b] == w.bows[b] {
            assert b != invs[0] && b !in invs[1..][..k + 1];
          }
        }
      }
    }
  }

  /** The first `k + 1` entries of the tail are the entries after the head in the first `k + 2`. */
  lemma PrefixOfTail(invs: seq<InventoryId>, k: nat)
    requires k + 1 < |invs|
    ensures invs[..k + 2] == [invs[0]] + invs[1..][..k + 1]
  {
  }

  /**
   For an arrow that can be claimed, failed offers change nothing, so the
   arrow goes to the first free and ready inventory, and to none if there is
   none, in which case the world is untouched.
   */
  lemma {:induction false} OfferGoesToFirstFree(w: World, arrow: ArrowId, invs: seq<InventoryId>, now: real)
    requires arrow in w.arrows && AllBows(w, invs) && Claimable(w.arrows[arrow].state)
    ensures Offer(w, arrow, invs, now).taker == FirstFree(w, invs, now)
    ensures FirstFree(w, invs, now).None? ==> Offer(w, arrow, invs, now).world == w
    ensures FirstFree(w, invs, now).Some? ==>
      Offer(w, arrow, invs, now).world == TryAddArrowToInventory(w, invs[FirstFree(w, invs, now).value], arrow, now).world
    decreases |invs|
  {
    if |invs| > 0 {
      var b := w.bows[invs[0]];
      if b.slot.None? && Ready(b, now) {
        assert TryAddArrowToInventory(w, invs[0], arrow, now).ok;
      } else {
        assert TryAddArrowToInventory(w, invs[0], arrow, now) == Added(false, w);
        AllBowsTail(w, invs);
        OfferGoesToFirstFree(w, arrow, invs[1..], now);
        var rest := Offer(w, arrow, invs[1..], now);
        assert Offer(w, arrow, invs, now).world == rest.world;
        assert Offer(w, arrow, invs, now).taker == Shift(rest.taker, 1);
      }
    }
  }

  /** A bow that cannot take an arrow now: its slot is full or its cooldown is running. */
  predicate Busy(b: Bow, now: real) {
    b.slot.Some? || !Ready(b, now)
  }

  /** Every listed inventory is a bow of the world that cannot take an arrow now. */
  predicate Settled(w: World, invs: seq<InventoryId>, now: real) {
    forall i | 0 <= i < |invs| :: invs[i] in w.bows && Busy(w.bows[invs[i]], now)
  }

  /** From `w` to `w2` no bow was emptied or had its cooldown restarted. */
  predicate StaysBusy(w: World, w2: World, now: real) {
    w2.bows.Keys == w.bows.Keys
    && forall b | b in w.bows :: b in w2.bows && (Busy(w.bows[b], now) ==> Busy(w2.bows[b], now))
  }

  lemma AllBowsConcat(w: World, p: seq<InventoryId>, q: seq<InventoryId>)
    requires AllBows(w, p) && AllBows(w, q)
    ensures AllBows(w, p + q)
  {
    forall i | 0 <= i < |p + q| ensures (p + q)[i] in w.bows {
      if i >= |p| {
        assert (p + q)[i] == q[i - |p|];
      }
    }
  }

  /** A settled list of inventories is a list without a free one. */
  lemma SettledHasNoFree(w: World, invs: seq<InventoryId>, now: real)
    requires AllBows(w, invs)
    ensures Settled(w, invs, now) <==> FirstFree(w, invs, now).None?
  {
  }

  /** An offer to one inventory leaves that bow busy and frees no bow. */
  lemma TryAddStaysBusy(w: World, bow: InventoryId, arrow: ArrowId, now: real)
    requires bow in w.bows && arrow in w.arrows
    ensures var w2 := TryAddArrowToInventory(w, bow, arrow, now).world;
      StaysBusy(w, w2, now) && Busy(w2.bows[bow], now)
  {
  }

  /** An offer along a list frees no bow; when refused everywhere, every listed bow is busy after it. */
  lemma {:induction false} OfferStaysBusy(w: World, arrow: ArrowId, invs: seq<InventoryId>, now: real)
    requires arrow in w.arrows && AllBows(w, invs)
    ensures StaysBusy(w, Offer(w, arrow, invs, now).world, now)
    ensures Offer(w, arrow, invs, now).taker.None? ==> Settled(Offer(w, arrow, invs, now).world, invs, now)
    decreases |invs|
  {
    if |invs| > 0 {
      var t := TryAddArrowToInventory(w, invs[0], arrow, now);
      TryAddStaysBusy(w, invs[0], arrow, now);
      if !t.ok {
        AllBowsTail(w, invs);
        OfferStaysBusy(t.world, arrow, invs[1..], now);
        var rest := Offer(t.world, arrow, invs[1..], now);
        assert Offer(w, arrow, invs, now) == Offered(rest.world, Shift(rest.taker, 1));
        if rest.taker.None? {
          forall i | 0 <= i < |invs| ensures invs[i] in rest.world.bows && Busy(rest.world.bows[invs[i]], now) {
            if i > 0 {
              assert invs[i] == invs[1..][i - 1];
            }
          }
        }
      }
    }
  }

  /** Offering along a list of busy bows is refused at once and changes nothing. */
  lemma {:induction false} OfferToSettled(w: World, arrow: ArrowId, invs: seq<InventoryId>, now: real)
    requires arrow in w.arrows && AllBows(w, invs) && Settled(w, invs, now)
    ensures Offer(w, arrow, invs, now) == Offered(w, None)
    decreases |invs|
  {
    if |invs| > 0 {
      assert TryAddArrowToInventory(w, invs[0], arrow, now) == Added(false, w);
      AllBowsTail(w, invs);
      forall i | 0 <= i < |invs[1..]| ensures invs[1..][i] in w.bows && Busy(w.bows[invs[1..][i]], now) {
        assert invs[1..][i] == invs[i + 1];
      }
      OfferToSettled(w, arrow, invs[1..], now);
    }
  }

  /** Worlds with the same bows list the same inventories. */
  lemma AllBowsSameKeys(w: World, w2: World, invs: seq<InventoryId>)
    requires AllBows(w, invs) && w2.bows.Keys == w.bows.Keys
    ensures AllBows(w2, invs)
  {
    forall i | 0 <= i < |invs| ensures invs[i] in w2.bows {
      assert invs[i] in w.bows;
    }
  }

  /** An offer kept by an inventory of `p` is not affected by what is listed after `p`. */
  lemma {:induction false} OfferConcatKept(w: World, arrow: ArrowId, p: seq<InventoryId>, q: seq<InventoryId>, now: real)
    requires arrow in w.arrows && AllBows(w, p) && AllBows(w, p + q)
    requires Offer(w, arrow, p, now).taker.Some?
    ensures Offer(w, arrow, p + q, now) == Offer(w, arrow, p, now)
    decreases |p|
  {
    ConcatTail(p, q);
    if !TryAddArrowToInventory(w, p[0], arrow, now).ok {
      var t := TryAddArrowToInventory(w, p[0], arrow, now).world;
      OfferRefusedAtHead(w, arrow, p, now);
      OfferRefusedAtHead(w, arrow, p + q, now);
      OfferConcatKept(t, arrow, p[1..], q, now);
    }
  }

  /**
   An offer refused along all of `p` goes on along `q` from the world `p`
   left, every index moved on by `|p|`.
   */
  lemma {:induction false} OfferConcatPassed(w: World, arrow: ArrowId, p: seq<InventoryId>, q: seq<InventoryId>, now: real)
    requires arrow in w.arrows && AllBows(w, p) && AllBows(w, q)
    requires Offer(w, arrow, p, now).taker.None?
    ensures AllBows(w, p + q)
    ensures var o := Offer(w, arrow, p, now).world;
      AllBows(o, q)
      && Offer(w, arrow, p + q, now) == Offered(Offer(o, arrow, q, now).world, Shift(Offer(o, arrow, q, now).taker, |p|))
    decreases |p|
  {
    AllBowsConcat(w, p, q);
    AllBowsSameKeys(w, Offer(w, arrow, p, now).world, q);
    if |p| == 0 {
      assert p + q == q;
    } else {
      ConcatTail(p, q);
      var t := TryAddArrowToInventory(w, p[0], arrow, now).world;
      OfferRefusedAtHead(w, arrow, p, now);
      OfferRefusedAtHead(w, arrow, p + q, now);
      AllBowsSameKeys(w, t, q);
      OfferConcatPassed(t, arrow, p[1..], q, now);
    }
  }

  lemma ConcatTail<T>(p: seq<T>, q: seq<T>)
    requires |p| > 0
    ensures (p + q)[0] == p[0] && (p + q)[1..] == p[1..] + q
  {
  }

  /** An offer refused by the first inventory goes on along the rest, one place further on. */
  lemma OfferRefusedAtHead(w: World, arrow: ArrowId, invs: seq<InventoryId>, now: real)
    requires arrow in w.arrows && AllBows(w, invs) && |invs| > 0
    requires !TryAddArrowToInventory(w, invs[0], arrow, now).ok
    ensures var t := TryAddArrowToInventory(w, invs[0], arrow, now).world;
      AllBows(t, invs[1..])
      && Offer(w, arrow, invs, now) == Offered(Offer(t, arrow, invs[1..], now).world,
                                               Shift(Offer(t, arrow, invs[1..], now).taker, 1))
  {
    AllBowsTail(w, invs);
    AllBowsSameKeys(w, TryAddArrowToInventory(w, invs[0], arrow, now).world, invs[1..]);
  }

  /**
   Listing a run of inventories twice, as the collector lists its own,
   changes no offer: the arrow ends in the same world, and when kept, it is
   kept by the same inventory.
   */
  lemma RepeatedPrefixHarmless(w: World, arrow: ArrowId, p: seq<InventoryId>, q: seq<InventoryId>, now: real)
    requires arrow in w.arrows && AllBows(w, p) && AllBows(w, q)
    ensures AllBows(w, p + p + q) && AllBows(w, p + q)
    ensures var twice := Offer(w, arrow, p + p + q, now);
      var once := Offer(w, arrow, p + q, now);
      && twice.world == once.world
      && (twice.taker.Some? <==> once.taker.Some?)
      && (twice.taker.Some? ==> (p + p + q)[twice.taker.value] == (p + q)[once.taker.value])
  {
    AllBowsConcat(w, p, q);
    AllBowsConcat(w, p, p + q);
    assert p + p + q == p + (p + q);
    if Offer(w, arrow, p, now).taker.Some? {
      KeptBeforeRepeat(w, arrow, p, q, now);
    } else {
      PassedBeforeRepeat(w, arrow, p, q, now);
    }
  }

  /** `RepeatedPrefixHarmless` when an inventory of the first pass keeps the arrow. */
  lemma KeptBeforeRepeat(w: World, arrow: ArrowId, p: seq<InventoryId>, q: seq<InventoryId>, now: real)
    requires arrow in w.arrows && AllBows(w, p) && AllBows(w, p + q) && AllBows(w, p + (p + q))
    requires Offer(w, arrow, p, now).taker.Some?
    ensures Offer(w, arrow, p + (p + q), now) == Offer(w, arrow, p + q, now) == Offer(w, arrow, p, now)
    ensures var k := Offer(w, arrow, p, now).taker.value; (p + (p + q))[k] == (p + q)[k]
  {
    OfferConcatKept(w, arrow, p, p + q, now);
    OfferConcatKept(w, arrow, p, q, now);
    var k := Offer(w, arrow, p, now).taker.value;
    assert (p + (p + q))[k] == p[k] == (p + q)[k];
  }

  /** `RepeatedPrefixHarmless` when the first pass refuses the arrow everywhere. */
  lemma PassedBeforeRepeat(w: World, arrow: ArrowId, p: seq<InventoryId>, q: seq<InventoryId>, now: real)
    requires arrow in w.arrows && AllBows(w, p) && AllBows(w, q) && AllBows(w, p + q)
    requires Offer(w, arrow, p, now).taker.None?
    ensures AllBows(w, p + (p + q))
    ensures var twice := Offer(w, arrow, p + (p + q), now);
      var once := Offer(w, arrow, p + q, now);
      && twice.world == once.world
      && (twice.taker.Some? <==> once.taker.Some?)
      && (twice.taker.Some? ==> (p + (p + q))[twice.taker.value] == (p + q)[once.taker.value])
  {
    var o := Offer(w, arrow, p, now).world;
    OfferConcatPassed(w, arrow, p, p + q, now);
    OfferConcatPassed(w, arrow, p, q, now);
    SecondPassRefused(w, arrow, p, q, now);
    PassedBookkeeping(Offer(w, arrow, p + (p + q), now), Offer(w, arrow, p + q, now),
                      Offer(o, arrow, p + q, now), Offer(o, arrow, q, now), p, q);
  }

  /** The index arithmetic of `PassedBeforeRepeat`, on the outcomes alone. */
  lemma PassedBookkeeping(twice: Offered, once: Offered, mid: Offered, s: Offered,
                          p: seq<InventoryId>, q: seq<InventoryId>)
    requires twice == Offered(mid.world, Shift(mid.taker, |p|))
    requires mid == Offered(s.world, Shift(s.taker, |p|))
    requires once == Offered(s.world, Shift(s.taker, |p|))
    requires s.taker.Some? ==> s.taker.value < |q|
    ensures twice.world == once.world && (twice.taker.Some? <==> once.taker.Some?)
    ensures twice.taker.Some? ==>
      && twice.taker.value < |p + (p + q)| && once.taker.value < |p + q|
      && (p + (p + q))[twice.taker.value] == (p + q)[once.taker.value]
  {
    if s.taker.Some? {
      var k := s.taker.value;
      assert (p + (p + q))[k + 2 * |p|] == (p + q)[k + |p|] == q[k];
    }
  }

  /**
   After an offer refused along all of `p`, a second pass along `p` is
   refused at once, so going on along `p + q` is going on along `q`.
   */
  lemma SecondPassRefused(w: World, arrow: ArrowId, p: seq<InventoryId>, q: seq<InventoryId>, now: real)
    requires arrow in w.arrows && AllBows(w, p) && AllBows(w, q)
    requires Offer(w, arrow, p, now).taker.None?
    ensures var o := Offer(w, arrow, p, now).world;
      && AllBows(o, p) && AllBows(o, q) && AllBows(o, p + q)
      && Offer(o, arrow, p + q, now) == Offered(Offer(o, arrow, q, now).world, Shift(Offer(o, arrow, q, now).taker, |p|))
  {
    var o := Offer(w, arrow, p, now).world;
    AllBowsSameKeys(w, o, p);
    AllBowsSameKeys(w, o, q);
    OfferStaysBusy(w, arrow, p, now);
    OfferToSettled(o, arrow, p, now);
    OfferConcatPassed(o, arrow, p, q, now);
  }

  /** All the listed arrows are arrows of the world. */
  predicate Known(w: World, arrows: seq<ArrowId>) {
    forall i | 0 <= i < |arrows| :: arrows[i] in w.arrows
  }

  /** Offer each candidate in turn (`ForEach`). */
  function OfferAll(w: World, candidates: seq<ArrowId>, invs: seq<InventoryId>, now: real): (r: World)
    requires Known(w, candidates)
    requires AllBows(w, invs)
    ensures r.arrows.Keys == w.arrows.Keys && r.bows.Keys == w.bows.Keys
    ensures forall x | x in w.arrows && x !in candidates :: r.arrows[x] == w.arrows[x]
    ensures forall b | b in w.bows && b !in invs :: r.bows[b] == w.bows[b]
    decreases |candidates|
  {
    if |candidates| == 0 then w
    else
      var o := Offer(w, candidates[0], invs, now);
      assert forall x | x in candidates[1..] :: x in candidates;
      OfferAll(o.world, candidates[1..], invs, now)
  }

  /** `LateUpdate`: the whole scan, which only the server performs. */
  function Scan(w: World, registry: seq<ArrowId>, invs: seq<InventoryId>, isServer: bool,
                at: Vec3, range: real, now: real): (r: World)
    requires AllBows(w, invs)
    ensures !isServer ==> r == w
    ensures r.arrows.Keys == w.arrows.Keys && r.bows.Keys == w.bows.Keys
    // arrows in flight, on a string or in a quiver, out of range or not collectable are never offered
    ensures forall x | x in w.arrows && !Eligible(w.arrows[x], at, range) :: r.arrows[x] == w.arrows[x]
    ensures forall x | x in w.arrows && x !in registry :: r.arrows[x] == w.arrows[x]
    ensures forall b | b in w.bows && b !in invs :: r.bows[b] == w.bows[b]
  {
    if !isServer then w
    else OfferAll(w, Candidates(w, registry, at, range), invs, now)
  }

  /**
   Offering distinct stuck arrows, none of them held, keeps the world
   consistent: each arrow either stays where it is or ends up on the string
   of exactly the bow that took it.
   */
  lemma {:induction false} OfferAllPreservesConsistency(w: World, candidates: seq<ArrowId>,
                                                        invs: seq<InventoryId>, now: real)
    requires forall i | 0 <= i < |candidates| :: candidates[i] in w.arrows && w.arrows[candidates[i]].state == Stuck
    requires AllBows(w, invs) && NoDuplicates(candidates) && Consistent(w)
    ensures Consistent(OfferAll(w, candidates, invs, now))
    decreases |candidates|
  {
    if |candidates| > 0 {
      var c := candidates[0];
      OfferPreservesConsistency(w, c, invs, now);
      var w1 := Offer(w, c, invs, now).world;
      forall i | 0 <= i < |candidates[1..]|
        ensures candidates[1..][i] in w1.arrows && w1.arrows[candidates[1..][i]].state == Stuck
      {
        assert candidates[1..][i] == candidates[i + 1] && candidates[i + 1] != c;
      }
      forall i, j | 0 <= i < j < |candidates[1..]| ensures candidates[1..][i] != candidates[1..][j] {
        assert candidates[1..][i] == candidates[i + 1] && candidates[1..][j] == candidates[j + 1];
      }
      OfferAllPreservesConsistency(w1, candidates[1..], invs, now);
    }
  }

  /** Offering one stuck arrow keeps the world consistent. */
  lemma {:induction false} OfferPreservesConsistency(w: World, arrow: ArrowId, invs: seq<InventoryId>, now: real)
    requires arrow in w.arrows && w.arrows[arrow].state == Stuck
    requires AllBows(w, invs) && Consistent(w)
    ensures Consistent(Offer(w, arrow, invs, now).world)
    decreases |invs|
  {
    if |invs| > 0 {
      UnnockedIsUnheld(w, arrow);
      TryAddPreservesConsistency(w, invs[0], arrow, now);
      var t := TryAddArrowToInventory(w, invs[0], arrow, now);
      if !t.ok {
        assert t.world == w;
        OfferPreservesConsistency(w, arrow, invs[1..], now);
      }
    }
  }

  /**
   The scan over a registry without duplicates keeps the world consistent:
   no arrow ends up in two bows.
   */
  lemma ScanPreservesConsistency(w: World, registry: seq<ArrowId>, invs: seq<InventoryId>, isServer: bool,
                                 at: Vec3, range: real, now: real)
    requires AllBows(w, invs) && Consistent(w) && NoDuplicates(registry)
    ensures Consistent(Scan(w, registry, invs, isServer, at, range, now))
  {
    if isServer {
      var cands := Candidates(w, registry, at, range);
      OfferAllPreservesConsistency(w, cands, invs, now);
    }
  }

  /**
   A registry that lists an arrow twice, as the host's double registration
   leaves it, has the collector offer that arrow twice in one scan: the
   first free bow takes it, then the second free bow takes it from the
   first, and both slots end up naming the same arrow.
   */
  lemma DuplicateEntryIsTakenTwice(w: World, a: ArrowId, b1: InventoryId, b2: InventoryId,
                                   at: Vec3, range: real, now: real)
    requires a in w.arrows && Eligible(w.arrows[a], at, range)
    requires b1 != b2 && b1 in w.bows && b2 in w.bows
    requires w.bows[b1].slot.None? && Ready(w.bows[b1], now)
    requires w.bows[b2].slot.None? && Ready(w.bows[b2], now)
    ensures var r := Scan(w, [a, a], [b1, b2], true, at, range, now);
      r.bows[b1].slot == Some(a) && r.bows[b2].slot == Some(a) && !Consistent(r)
  {
    var invs := [b1, b2];
    CandidatesOfDouble(w, a, at, range);
    FirstOfferOfDouble(w, a, b1, b2, now);
    var o1 := Offer(w, a, invs, now);
    SecondOfferOfDouble(o1.world, a, b1, b2, now);
    OfferAllTwice(w, a, invs, now);
  }

  /** The first offer of the doubled arrow goes to the first bow and leaves the second alone. */
  lemma FirstOfferOfDouble(w: World, a: ArrowId, b1: InventoryId, b2: InventoryId, now: real)
    requires a in w.arrows && w.arrows[a].state == Stuck
    requires b1 != b2 && b1 in w.bows && b2 in w.bows
    requires w.bows[b1].slot.None? && Ready(w.bows[b1], now)
    ensures var o := Offer(w, a, [b1, b2], now);
      && o.taker == Some(0) && o.world.bows[b1].slot == Some(a)
      && o.world.bows[b2] == w.bows[b2] && o.world.arrows[a].state == ArrowState.Nock
  {
    var invs := [b1, b2];
    OfferGoesToFirstFree(w, a, invs, now);
    OfferAsksNoFurther(w, a, invs, now);
    assert invs[..1] == [b1];
  }

  /** The second offer, of the arrow now on the first bow's string, goes to the second bow. */
  lemma SecondOfferOfDouble(w: World, a: ArrowId, b1: InventoryId, b2: InventoryId, now: real)
    requires a in w.arrows && w.arrows[a].state == ArrowState.Nock
    requires b1 != b2 && b1 in w.bows && b2 in w.bows
    requires w.bows[b1].slot == Some(a)
    requires w.bows[b2].slot.None? && Ready(w.bows[b2], now)
    ensures var o := Offer(w, a, [b1, b2], now);
      o.taker == Some(1) && o.world.bows[b1].slot == Some(a) && o.world.bows[b2].slot == Some(a)
  {
    var invs := [b1, b2];
    OfferGoesToFirstFree(w, a, invs, now);
    assert FirstFree(w, invs[1..], now) == Some(0);
    OfferAsksNoFurther(w, a, invs, now);
    assert invs[..2] == invs;
  }

  /** Both entries of a doubled eligible arrow are candidates. */
  lemma CandidatesOfDouble(w: World, a: ArrowId, at: Vec3, range: real)
    requires a in w.arrows && Eligible(w.arrows[a], at, range)
    ensures Candidates(w, [a, a], at, range) == [a, a]
  {
    assert [a, a][1..] == [a];
    assert [a][1..] == [];
  }

  /** Offering the same arrow twice is two offers in a row. */
  lemma OfferAllTwice(w: World, a: ArrowId, invs: seq<InventoryId>, now: real)
    requires a in w.arrows && AllBows(w, invs)
    ensures OfferAll(w, [a, a], invs, now) == Offer(Offer(w, a, invs, now).world, a, invs, now).world
  {
    var w1 := Offer(w, a, invs, now).world;
    var w2 := Offer(w1, a, invs, now).world;
    assert [a, a][1..] == [a];
    assert OfferAll(w, [a, a], invs, now) == OfferAll(w1, [a], invs, now);
    assert [a][1..] == [];
    assert OfferAll(w1, [a], invs, now) == OfferAll(w2, [], invs, now);
  }

  // ---------------------------------------------------------------------
  // Composing scans, and what a scan leaves behind
  // ---------------------------------------------------------------------

  lemma KnownSameKeys(w: World, w2: World, c: seq<ArrowId>)
    requires Known(w, c) && w2.arrows.Keys == w.arrows.Keys
    ensures Known(w2, c)
  {
    forall i | 0 <= i < |c| ensures c[i] in w2.arrows {
      assert c[i] in w.arrows;
    }
  }

  lemma KnownConcat(w: World, c1: seq<ArrowId>, c2: seq<ArrowId>)
    requires Known(w, c1) && Known(w, c2)
    ensures Known(w, c1 + c2)
  {
    forall i | 0 <= i < |c1 + c2| ensures (c1 + c2)[i] in w.arrows {
      if i >= |c1| {
        assert (c1 + c2)[i] == c2[i - |c1|];
      }
    }
  }

  lemma KnownTail(w: World, c: seq<ArrowId>)
    requires Known(w, c) && |c| > 0
    ensures c[0] in w.arrows && Known(w, c[1..])
  {
    forall i | 0 <= i < |c[1..]| ensures c[1..][i] in w.arrows {
      assert c[1..][i] == c[i + 1];
    }
  }

  /** One candidate offered, then the rest. */
  lemma OfferAllStep(w: World, c: seq<ArrowId>, invs: seq<InventoryId>, now: real)
    requires Known(w, c) && AllBows(w, invs) && |c| > 0
    ensures c[0] in w.arrows
    ensures var w1 := Offer(w, c[0], invs, now).world;
      && Known(w1, c[1..]) && AllBows(w1, invs)
      && OfferAll(w, c, invs, now) == OfferAll(w1, c[1..], invs, now)
  {
    KnownTail(w, c);
    var w1 := Offer(w, c[0], invs, now).world;
    KnownSameKeys(w, w1, c[1..]);
    AllBowsSameKeys(w, w1, invs);
  }

  /** Offering `c1 + c2` is offering `c1`, then `c2` to the world `c1` left. */
  lemma {:induction false} OfferAllConcat(w: World, c1: seq<ArrowId>, c2: seq<ArrowId>, invs: seq<InventoryId>, now: real)
    requires Known(w, c1) && Known(w, c2) && AllBows(w, invs)
    ensures Known(w, c1 + c2)
    ensures Known(OfferAll(w, c1, invs, now), c2) && AllBows(OfferAll(w, c1, invs, now), invs)
    ensures OfferAll(w, c1 + c2, invs, now) == OfferAll(OfferAll(w, c1, invs, now), c2, invs, now)
    decreases |c1|
  {
    KnownConcat(w, c1, c2);
    KnownSameKeys(w, OfferAll(w, c1, invs, now), c2);
    AllBowsSameKeys(w, OfferAll(w, c1, invs, now), invs);
    if |c1| == 0 {
      assert c1 + c2 == c2;
    } else {
      ConcatTail(c1, c2);
      var w1 := Offer(w, c1[0], invs, now).world;
      OfferAllStep(w, c1, invs, now);
      OfferAllStep(w, c1 + c2, invs, now);
      KnownSameKeys(w, w1, c2);
      OfferAllConcat(w1, c1[1..], c2, invs, now);
    }
  }

  /**
   Scans compose along the registry: scanning `r1 + r2` is scanning `r1`,
   then offering the candidates `r2` had before the scan began.
   */
  lemma ScanInRegistryOrder(w: World, r1: seq<ArrowId>, r2: seq<ArrowId>, invs: seq<InventoryId>,
                            at: Vec3, range: real, now: real)
    requires AllBows(w, invs)
    ensures var w1 := Scan(w, r1, invs, true, at, range, now);
      Known(w1, Candidates(w, r2, at, range)) && AllBows(w1, invs)
    ensures Scan(w, r1 + r2, invs, true, at, range, now)
      == OfferAll(Scan(w, r1, invs, true, at, range, now), Candidates(w, r2, at, range), invs, now)
  {
    var c1 := Candidates(w, r1, at, range);
    var c2 := Candidates(w, r2, at, range);
    CandidatesKnown(w, r1, at, range);
    CandidatesKnown(w, r2, at, range);
    CandidatesInOrder(w, r1, r2, at, range);
    OfferAllConcat(w, c1, c2, invs, now);
  }

  lemma CandidatesKnown(w: World, registry: seq<ArrowId>, at: Vec3, range: real)
    ensures Known(w, Candidates(w, registry, at, range))
  {
    var c := Candidates(w, registry, at, range);
    forall i | 0 <= i < |c| ensures c[i] in w.arrows {
      assert c[i] in c;
    }
  }

  /** The arrow is on the string of one of the listed inventories. */
  predicate Taken(a: A.Arrow, invs: seq<InventoryId>) {
    a.state == ArrowState.Nock && a.owner.Some? && a.owner.value in invs
  }

  lemma StaysBusyTransitive(w1: World, w2: World, w3: World, now: real)
    requires StaysBusy(w1, w2, now) && StaysBusy(w2, w3, now)
    ensures StaysBusy(w1, w3, now)
  {
  }

  lemma SettledStaysBusy(w: World, w2: World, invs: seq<InventoryId>, now: real)
    requires Settled(w, invs, now) && StaysBusy(w, w2, now)
    ensures Settled(w2, invs, now)
  {
    forall i | 0 <= i < |invs| ensures invs[i] in w2.bows && Busy(w2.bows[invs[i]], now) {
      assert invs[i] in w.bows && Busy(w.bows[invs[i]], now);
    }
  }

  /** A scan frees no bow. */
  lemma {:induction false} OfferAllStaysBusy(w: World, c: seq<ArrowId>, invs: seq<InventoryId>, now: real)
    requires Known(w, c) && AllBows(w, invs)
    ensures StaysBusy(w, OfferAll(w, c, invs, now), now)
    decreases |c|
  {
    if |c| > 0 {
      OfferAllStep(w, c, invs, now);
      var w1 := Offer(w, c[0], invs, now).world;
      OfferStaysBusy(w, c[0], invs, now);
      OfferAllStaysBusy(w1, c[1..], invs, now);
      StaysBusyTransitive(w, w1, OfferAll(w1, c[1..], invs, now), now);
    }
  }

  /** An arrow on the string of a listed inventory stays on the string of a listed inventory. */
  lemma {:induction false} OfferAllKeepsTaken(w: World, c: seq<ArrowId>, invs: seq<InventoryId>, now: real, x: ArrowId)
    requires Known(w, c) && AllBows(w, invs) && x in w.arrows && Taken(w.arrows[x], invs)
    ensures Taken(OfferAll(w, c, invs, now).arrows[x], invs)
    decreases |c|
  {
    if |c| > 0 {
      OfferAllStep(w, c, invs, now);
      var o := Offer(w, c[0], invs, now);
      if o.taker.Some? && c[0] == x {
        assert invs[o.taker.value] in invs;
      }
      OfferAllKeepsTaken(o.world, c[1..], invs, now, x);
    }
  }

  /**
   No eligible arrow is passed over while a bow could take it: each stuck
   candidate ends on the string of a listed inventory, or is left exactly
   as it was with every listed bow full or cooling down.
   */
  lemma {:induction false} OfferAllExhaustive(w: World, c: seq<ArrowId>, invs: seq<InventoryId>, now: real, x: ArrowId)
    requires Known(w, c) && AllBows(w, invs) && x in c && x in w.arrows && w.arrows[x].state == Stuck
    ensures var r := OfferAll(w, c, invs, now);
      Taken(r.arrows[x], invs) || (r.arrows[x] == w.arrows[x] && Settled(r, invs, now))
    decreases |c|
  {
    OfferAllStep(w, c, invs, now);
    var o := Offer(w, c[0], invs, now);
    if c[0] == x {
      OfferGoesToFirstFree(w, x, invs, now);
      if o.taker.Some? {
        assert invs[o.taker.value] in invs;
        OfferAllKeepsTaken(o.world, c[1..], invs, now, x);
      } else {
        SettledHasNoFree(w, invs, now);
        if x in c[1..] {
          OfferAllExhaustive(w, c[1..], invs, now, x);
        } else {
          OfferAllStaysBusy(w, c[1..], invs, now);
          SettledStaysBusy(w, OfferAll(w, c[1..], invs, now), invs, now);
        }
      }
    } else {
      assert x in c[1..];
      OfferAllExhaustive(o.world, c[1..], invs, now, x);
    }
  }

  /**
   After a scan on the server, an eligible registered arrow is either on the
   string of one of the collector's inventories, or untouched, and then no
   listed inventory is free and ready: in particular a still-stuck eligible
   arrow means every bow was full or cooling down.
   */
  lemma ScanIsExhaustive(w: World, registry: seq<ArrowId>, invs: seq<InventoryId>,
                         at: Vec3, range: real, now: real, x: ArrowId)
    requires AllBows(w, invs) && x in registry && x in w.arrows && Eligible(w.arrows[x], at, range)
    ensures AllBows(Scan(w, registry, invs, true, at, range, now), invs)
    ensures var r := Scan(w, registry, invs, true, at, range, now);
      Taken(r.arrows[x], invs) || (r.arrows[x] == w.arrows[x] && FirstFree(r, invs, now).None?)
    ensures var r := Scan(w, registry, invs, true, at, range, now);
      r.arrows[x].state == Stuck ==> FirstFree(r, invs, now).None?
  {
    var r := Scan(w, registry, invs, true, at, range, now);
    AllBowsSameKeys(w, r, invs);
    CandidatesKnown(w, registry, at, range);
    OfferAllExhaustive(w, Candidates(w, registry, at, range), invs, now, x);
    SettledHasNoFree(r, invs, now);
  }

  /** Listing a run of inventories twice changes no scan step. */
  lemma {:induction false} OfferAllRepeatedPrefix(w: World, c: seq<ArrowId>, p: seq<InventoryId>,
                                                  q: seq<InventoryId>, now: real)
    requires Known(w, c) && AllBows(w, p) && AllBows(w, q)
    ensures AllBows(w, p + p + q) && AllBows(w, p + q)
    ensures OfferAll(w, c, p + p + q, now) == OfferAll(w, c, p + q, now)
    decreases |c|
  {
    AllBowsConcat(w, p, q);
    AllBowsConcat(w, p + p, q);
    AllBowsConcat(w, p, p);
    if |c| > 0 {
      OfferAllStep(w, c, p + p + q, now);
      OfferAllStep(w, c, p + q, now);
      RepeatedPrefixHarmless(w, c[0], p, q, now);
      var w1 := Offer(w, c[0], p + q, now).world;
      AllBowsSameKeys(w, w1, p);
      AllBowsSameKeys(w, w1, q);
      OfferAllRepeatedPrefix(w1, c[1..], p, q, now);
    }
  }

  /**
   The collector scans the same with its inventory list as it would with
   each inventory listed once.
   */
  lemma ScanThroughInventoryList(w: World, registry: seq<ArrowId>, own: seq<InventoryId>,
                                 descendants: seq<InventoryId>, isServer: bool, at: Vec3, range: real, now: real)
    requires AllBows(w, own) && AllBows(w, descendants)
    ensures AllBows(w, InventoryList(own, descendants)) && AllBows(w, own + descendants)
    ensures Scan(w, registry, InventoryList(own, descendants), isServer, at, range, now)
      == Scan(w, registry, own + descendants, isServer, at, range, now)
  {
    CandidatesKnown(w, registry, at, range);
    OfferAllRepeatedPrefix(w, Candidates(w, registry, at, range), own, descendants, now);
  }
}

=== FILE: arrow_machine.dfy ===
/**
 The arrow lifecycle of `CharacterParts/ArrowBehaviour.cs`: the arrow that the
 bow nocks and releases and that the collector picks up. Each public mutator
 is a pure function from the arrow record to the next record, with the
 success flag the C# method returns.
 */
module ArrowMachine {
  import opened Common

  /**
   One arrow. `owner` is `OwnerInventory`, `anchor` is
   `connectedNockPosition` (the bow's string transform), `ignored` is the
   `ignoredColliders` list, `kinematic` is `rb.isKinematic`. `canBePickedUp`
   is the collector's gate; no code shown here ever writes it.
   */
  datatype Arrow = Arrow(
    state: ArrowState,
    owner: Option<InventoryId>,
    anchor: Option<AnchorId>,
    ignored: seq<Collider>,
    position: Vec3,
    rotation: Quat,
    velocity: Vec2,
    kinematic: bool,
    canBePickedUp: bool)

  /** Result of a mutator that reports success. */
  datatype Step = Step(ok: bool, arrow: Arrow)

  /** The fields a state change may touch stay as they were otherwise. */
  predicate SameBody(a: Arrow, b: Arrow) {
    a.ignored == b.ignored && a.position == b.position && a.rotation == b.rotation
    && a.canBePickedUp == b.canBePickedUp
  }

  /** Entering flight drops the owner and the string anchor and frees the body. */
  function EnterFlightState(a: Arrow): (r: Arrow)
    ensures r.state == Flight && r.owner == None && r.anchor == None && !r.kinematic
    ensures SameBody(a, r) && r.velocity == a.velocity
  {
    a.(owner := None, kinematic := false, anchor := None, state := Flight)
  }

  /** Entering the stuck state locks the body in place. */
  function EnterStuckState(a: Arrow): (r: Arrow)
    ensures r.state == Stuck && r.kinematic && r.velocity == ZeroVelocity
    ensures SameBody(a, r) && r.owner == a.owner && r.anchor == a.anchor
  {
    a.(kinematic := true, velocity := ZeroVelocity, state := Stuck)
  }

  /**
   `Release`: only a nocked arrow leaves the string; it is placed at
   `position`, given `velocity`, adopts `ignore` and enters flight.
   */
  function Release(a: Arrow, position: Vec3, velocity: Vec2, ignore: seq<Collider>): (r: Arrow)
    ensures a.state != ArrowState.Nock ==> r == a
    ensures a.state == ArrowState.Nock ==>
      && r.state == Flight && r.owner == None && r.anchor == None && !r.kinematic
      && r.position == position && r.velocity == velocity && r.ignored == ignore
      && r.rotation == a.rotation && r.canBePickedUp == a.canBePickedUp
  {
    if a.state != ArrowState.Nock then a
    else EnterFlightState(a.(position := position, velocity := velocity, ignored := ignore))
  }

  /**
   `Nock(inventory, stringPoint)`: claims the arrow for `inventory` and rides
   it on `stringPoint`; refused while the arrow is in flight.
   */
  function Nock(a: Arrow, inventory: InventoryId, stringPoint: Option<AnchorId>): (r: Step)
    ensures r.ok <==> Claimable(a.state)
    ensures !r.ok ==> r.arrow == a
    ensures r.ok ==>
      && r.arrow.state == ArrowState.Nock && r.arrow.owner == Some(inventory) && r.arrow.anchor == stringPoint
      && SameBody(a, r.arrow) && r.arrow.velocity == a.velocity && r.arrow.kinematic == a.kinematic
  {
    if !Claimable(a.state) then Step(false, a)
    else Step(true, a.(owner := Some(inventory), anchor := stringPoint, state := ArrowState.Nock))
  }

  /**
   `Quiver(inventory)`: claims the arrow for `inventory` and stores it; the
   string anchor is left as it was.
   */
  function Quiver(a: Arrow, inventory: InventoryId): (r: Step)
    ensures r.ok <==> Claimable(a.state)
    ensures !r.ok ==> r.arrow == a
    ensures r.ok ==>
      && r.arrow.state == ArrowState.Quiver && r.arrow.owner == Some(inventory) && r.arrow.anchor == a.anchor
      && SameBody(a, r.arrow) && r.arrow.velocity == a.velocity && r.arrow.kinematic == a.kinematic
  {
    if !Claimable(a.state) then Step(false, a)
    else Step(true, a.(owner := Some(inventory), state := ArrowState.Quiver))
  }

  /** `RemoveFromInventory(inventory)`: only the current owner may let go. */
  function RemoveFromInventory(a: Arrow, inventory: InventoryId): (r: Step)
    ensures r.ok <==> a.owner == Some(inventory)
    ensures r.ok ==> r.arrow == a.(owner := None)
    ensures !r.ok ==> r.arrow == a
  {
    if Some(inventory) != a.owner then Step(false, a)
    else Step(true, a.(owner := None))
  }

  /**
   `OnTriggerEnterFlight`: an ignored collider, or one that is neither
   damageable nor a surface, leaves the arrow flying; any other sticks it.
   */
  function OnTriggerEnterFlight(a: Arrow, other: Collider): (r: Arrow)
    ensures (other.id in Ids(a.ignored) || (!other.isDamageable && !other.isSurface)) ==> r == a
    ensures other.id !in Ids(a.ignored) && (other.isDamageable || other.isSurface) ==> r == EnterStuckState(a)
  {
    if other.id in Ids(a.ignored) then a
    else if !other.isDamageable && !other.isSurface then a
    else EnterStuckState(a)
  }

  /**
   `OnTriggerEnter2D`: only the server reacts to contacts, and only the
   flight state has a non-empty contact handler.
   */
  function OnTriggerEnter(a: Arrow, other: Collider, isServer: bool): (r: Arrow)
    ensures !isServer || a.state != Flight ==> r == a
    ensures r != a <==>
      isServer && a.state == Flight && other.id !in Ids(a.ignored) && (other.isDamageable || other.isSurface)
    ensures r != a ==> r.state == Stuck && r.velocity == ZeroVelocity && r.kinematic
    ensures r != a ==> r == EnterStuckState(a)
  {
    if !isServer then a
    else match a.state
      case Flight => OnTriggerEnterFlight(a, other)
      case Stuck => a
      case Quiver => a
      case Nock => a
  }

  /**
   `OnUpdateNock`: a nocked arrow with a live anchor is pinned to the anchor's
   pose. `poses` holds the poses of the transforms that currently exist; an
   anchor outside it is a null or destroyed transform and nothing moves.
   */
  function OnUpdateNock(a: Arrow, poses: map<AnchorId, Pose>): (r: Arrow)
    ensures a.anchor.Some? && a.anchor.value in poses ==>
      r.position == poses[a.anchor.value].position && r.rotation == poses[a.anchor.value].rotation
    ensures a.anchor.None? || a.anchor.value !in poses ==> r == a
    ensures r.state == a.state && r.owner == a.owner && r.anchor == a.anchor && r.velocity == a.velocity
    ensures r.ignored == a.ignored && r.kinematic == a.kinematic && r.canBePickedUp == a.canBePickedUp
  {
    if a.anchor.None? || a.anchor.value !in poses then a
    else
      var p := poses[a.anchor.value];
      a.(position := p.position, rotation := p.rotation)
  }

  // ---------------------------------------------------------------------
  // The transition table, as an independent reference
  // ---------------------------------------------------------------------

  /** The events that can move an arrow between states. */
  datatype Event = ReleaseEvent | NockEvent | QuiverEvent | HitEvent

  /**
   The lifecycle table: which state an event leads to from a given state,
   or `None` when the event is refused there and the state is kept.
   */
  function Table(from: ArrowState, e: Event): Option<ArrowState> {
    match (from, e)
    case (Nock, ReleaseEvent) => Some(Flight)
    case (Stuck, NockEvent) => Some(ArrowState.Nock)
    case (Quiver, NockEvent) => Some(ArrowState.Nock)
    case (Nock, NockEvent) => Some(ArrowState.Nock)
    case (Stuck, QuiverEvent) => Some(ArrowState.Quiver)
    case (Quiver, QuiverEvent) => Some(ArrowState.Quiver)
    case (Nock, QuiverEvent) => Some(ArrowState.Quiver)
    case (Flight, HitEvent) => Some(Stuck)
    case _ => None
  }

  /** The state `Table` says an event leaves the arrow in. */
  function After(from: ArrowState, e: Event): ArrowState {
    match Table(from, e)
    case Some(s) => s
    case None => from
  }

  /**
   Every mutator moves the arrow exactly as the table says, and the claims
   report success exactly when the table has an entry.
   */
  lemma MutatorsFollowTable(a: Arrow, inv: InventoryId, sp: Option<AnchorId>,
                            pos: Vec3, vel: Vec2, ignore: seq<Collider>, other: Collider)
    ensures Release(a, pos, vel, ignore).state == After(a.state, ReleaseEvent)
    ensures Nock(a, inv, sp).arrow.state == After(a.state, NockEvent)
    ensures Nock(a, inv, sp).ok <==> Table(a.state, NockEvent).Some?
    ensures Quiver(a, inv).arrow.state == After(a.state, QuiverEvent)
    ensures Quiver(a, inv).ok <==> Table(a.state, QuiverEvent).Some?
    ensures other.id !in Ids(a.ignored) && (other.isDamageable || other.isSurface) ==>
      OnTriggerEnter(a, other, true).state == After(a.state, HitEvent)
  {
  }

  /** Nocking twice with the same arguments is the same as nocking once. */
  lemma NockIdempotent(a: Arrow, inv: InventoryId, sp: Option<AnchorId>)
    ensures Nock(Nock(a, inv, sp).arrow, inv, sp) == Step(Nock(a, inv, sp).ok, Nock(a, inv, sp).arrow)
  {
  }

  /** The inventory that claimed an arrow is the one allowed to let it go. */
  lemma ClaimThenRemove(a: Arrow, inv: InventoryId, other: InventoryId, sp: Option<AnchorId>)
    requires Claimable(a.state) && other != inv
    ensures RemoveFromInventory(Nock(a, inv, sp).arrow, inv).ok
    ensures RemoveFromInventory(Nock(a, inv, sp).arrow, inv).arrow.owner == None
    ensures !RemoveFromInventory(Nock(a, inv, sp).arrow, other).ok
    ensures RemoveFromInventory(Quiver(a, inv).arrow, inv).ok
    ensures !RemoveFromInventory(Quiver(a, inv).arrow, other).ok
  {
  }

  /**
   Nock then release: a claimable arrow goes back to flight unowned, with
   the velocity and ignore set the release supplied.
   */
  lemma NockThenRelease(a: Arrow, inv: InventoryId, sp: Option<AnchorId>,
                        pos: Vec3, vel: Vec2, ignore: seq<Collider>)
    requires Claimable(a.state)
    ensures var r := Release(Nock(a, inv, sp).arrow, pos, vel, ignore);
      r.state == Flight && r.owner == None && r.anchor == None && r.velocity == vel && r.ignored == ignore
  {
  }

  /**
   A nocked arrow rides the string: once nocked to a string point whose
   pose is known, each update puts it at that pose; once released, updates
   no longer move it.
   */
  lemma NockThenUpdate(a: Arrow, inv: InventoryId, sp: AnchorId, poses: map<AnchorId, Pose>,
                       pos: Vec3, vel: Vec2, ignore: seq<Collider>)
    requires Claimable(a.state) && sp in poses
    ensures var r := OnUpdateNock(Nock(a, inv, Some(sp)).arrow, poses);
      && r.position == poses[sp].position && r.rotation == poses[sp].rotation
      && r.state == ArrowState.Nock && r.owner == Some(inv)
    ensures var f := Release(OnUpdateNock(Nock(a, inv, Some(sp)).arrow, poses), pos, vel, ignore);
      OnUpdateNock(f, poses) == f
  {
  }

  /**
   A contact is handled at most once: once stuck, further contacts with the
   same (or any) collider change nothing.
   */
  lemma ContactIdempotent(a: Arrow, other: Collider, isServer: bool)
    ensures OnTriggerEnter(OnTriggerEnter(a, other, isServer), other, isServer) == OnTriggerEnter(a, other, isServer)
  {
  }

  /**
   The ignore set adopted at release protects exactly its members: a
   released arrow stays in flight on contact with an ignored collider and
   sticks on contact with any other damageable or surface collider.
   */
  lemma IgnoreSetAfterRelease(a: Arrow, pos: Vec3, vel: Vec2, ignore: seq<Collider>, other: Collider)
    requires a.state == ArrowState.Nock
    requires other.isDamageable || other.isSurface
    ensures var f := Release(a, pos, vel, ignore);
      (other.id in Ids(ignore) ==> OnTriggerEnter(f, other, true) == f)
      && (other.id !in Ids(ignore) ==> OnTriggerEnter(f, other, true).state == Stuck)
  {
  }
}

=== FILE: arrow_registry.dfy ===
/**
 The static list of live arrows (`ArrowBehaviour.All`) kept by
 `RegisterArrow` in both arrow classes: registering appends (`List.Add`),
 unregistering removes the first occurrence (`List.Remove`).

 Both `OnStartClient` and `OnStartServer` register the arrow, and on a host
 (a process that is server and client at once) both run, while `OnDestroy`
 unregisters once. `RegisterOnce` is the corrected registration the rest of
 the model relies on: it keeps the list free of duplicates.
 */
module ArrowRegistry {
  import opened Common

  /** `RegisterArrow(true)`: append the arrow at the end of the list. */
  function Register(reg: seq<ArrowId>, a: ArrowId): (r: seq<ArrowId>)
    ensures |r| == |reg| + 1 && r[|reg|] == a && r[..|reg|] == reg
    ensures multiset(r) == multiset(reg) + multiset{a}
  {
    reg + [a]
  }

  /** `RegisterArrow(false)`: remove the first occurrence, if there is one. */
  function Unregister(reg: seq<ArrowId>, a: ArrowId): (r: seq<ArrowId>)
    ensures a !in reg ==> r == reg
    ensures multiset(r) == multiset(reg) - multiset{a}
    decreases |reg|
  {
    if |reg| == 0 then []
    else
      assert reg == [reg[0]] + reg[1..];
      if reg[0] == a then reg[1..] else [reg[0]] + Unregister(reg[1..], a)
  }

  /** The position of the first occurrence of `a`. */
  function FirstIndex(reg: seq<ArrowId>, a: ArrowId): (i: nat)
    requires a in reg
    ensures i < |reg| && reg[i] == a && a !in reg[..i]
    decreases |reg|
  {
    if reg[0] == a then 0
    else
      var j := FirstIndex(reg[1..], a);
      assert reg[..j + 1] == [reg[0]] + reg[1..][..j];
      j + 1
  }

  /** Removing the first occurrence keeps every other entry, in order. */
  lemma {:induction false} UnregisterKeepsOrder(reg: seq<ArrowId>, a: ArrowId)
    requires a in reg
    ensures Unregister(reg, a) == reg[..FirstIndex(reg, a)] + reg[FirstIndex(reg, a) + 1..]
    decreases |reg|
  {
    if reg[0] != a {
      UnregisterKeepsOrder(reg[1..], a);
      var j := FirstIndex(reg[1..], a);
      SplitAfterHead(reg, j);
    }
  }

  /** Cutting entry `j` out of the tail is cutting entry `j + 1` out of the whole list. */
  lemma SplitAfterHead(reg: seq<ArrowId>, j: nat)
    requires j + 1 < |reg|
    ensures [reg[0]] + (reg[1..][..j] + reg[1..][j + 1..]) == reg[..j + 1] + reg[j + 2..]
  {
    assert reg[..j + 1] == [reg[0]] + reg[1..][..j];
    assert reg[j + 2..] == reg[1..][j + 1..];
  }

  /** Registering an arrow that is not listed and then unregistering it restores the list. */
  lemma RegisterThenUnregister(reg: seq<ArrowId>, a: ArrowId)
    requires a !in reg
    ensures Unregister(Register(reg, a), a) == reg
  {
    UnregisterKeepsOrder(Register(reg, a), a);
  }

  /** As written: the host's two start callbacks each register the arrow. */
  function HostStart(reg: seq<ArrowId>, a: ArrowId): (r: seq<ArrowId>)
    ensures multiset(r) == multiset(reg) + multiset{a, a}
  {
    Register(Register(reg, a), a)
  }

  /**
   As written, on a host, the arrow is still listed after it is destroyed:
   the single `OnDestroy` removes only one of the two entries.
   */
  lemma HostDestroyLeavesStaleEntry(reg: seq<ArrowId>, a: ArrowId)
    ensures a in Unregister(HostStart(reg, a), a)
  {
    var r := Unregister(HostStart(reg, a), a);
    assert multiset(r) == multiset(reg) + multiset{a};
    assert a in multiset(r);
  }

  /** Corrected registration: an arrow already listed is not listed again. */
  function RegisterOnce(reg: seq<ArrowId>, a: ArrowId): (r: seq<ArrowId>)
    ensures a in r
    ensures NoDuplicates(reg) ==> NoDuplicates(r)
    ensures forall x :: x in r <==> x in reg || x == a
  {
    if a in reg then reg else reg + [a]
  }

  /** Corrected host start: both callbacks, each registering once. */
  function HostStartOnce(reg: seq<ArrowId>, a: ArrowId): (r: seq<ArrowId>)
    ensures forall x :: x in r <==> x in reg || x == a
    ensures NoDuplicates(reg) ==> NoDuplicates(r)
  {
    RegisterOnce(RegisterOnce(reg, a), a)
  }

  /** What a list lacks, a list with fewer elements lacks too. */
  lemma NotInSmaller(x: ArrowId, s: seq<ArrowId>, t: seq<ArrowId>)
    requires multiset(s) <= multiset(t) && x !in t
    ensures x !in s
  {
    assert x !in multiset(t);
  }

  /** Unregistering keeps a duplicate-free list duplicate-free and drops the arrow entirely. */
  lemma {:induction false} UnregisterNoDuplicates(reg: seq<ArrowId>, a: ArrowId)
    requires NoDuplicates(reg)
    ensures NoDuplicates(Unregister(reg, a))
    ensures a !in Unregister(reg, a)
    decreases |reg|
  {
    if |reg| > 0 {
      NoDuplicatesTail(reg);
      if reg[0] != a {
        UnregisterNoDuplicates(reg[1..], a);
        var rest := Unregister(reg[1..], a);
        NotInSmaller(reg[0], rest, reg[1..]);
        NoDuplicatesCons(reg[0], rest);
      }
    }
  }

  /** Corrected, on a host, destroying the arrow really removes it from the list. */
  lemma HostDestroyRemovesEntry(reg: seq<ArrowId>, a: ArrowId)
    requires NoDuplicates(reg)
    ensures a !in Unregister(HostStartOnce(reg, a), a)
    ensures NoDuplicates(Unregister(HostStartOnce(reg, a), a))
  {
    UnregisterNoDuplicates(HostStartOnce(reg, a), a);
  }

  /** A lifecycle event of some arrow: started (on client and/or server) or destroyed. */
  datatype Lifecycle = Started(arrow: ArrowId) | Destroyed(arrow: ArrowId)

  /** The corrected registry after a history of events. */
  function Replay(reg: seq<ArrowId>, events: seq<Lifecycle>): seq<ArrowId>
    decreases |events|
  {
    if |events| == 0 then reg
    else
      var next := match events[0]
        case Started(a) => RegisterOnce(reg, a)
        case Destroyed(a) => Unregister(reg, a);
      Replay(next, events[1..])
  }

  /** Any history of corrected registrations keeps the registry free of duplicates. */
  lemma {:induction false} ReplayNoDuplicates(reg: seq<ArrowId>, events: seq<Lifecycle>)
    requires NoDuplicates(reg)
    ensures NoDuplicates(Replay(reg, events))
    decreases |events|
  {
    if |events| > 0 {
      match events[0]
      case Started(a) =>
        ReplayNoDuplicates(RegisterOnce(reg, a), events[1..]);
      case Destroyed(a) =>
        UnregisterNoDuplicates(reg, a);
        ReplayNoDuplicates(Unregister(reg, a), events[1..]);
    }
  }
}

=== FILE: arrow_variants.dfy ===
/**
 The two arrow classes side by side: the hook-based arrow of
 `Arrows/ArrowBehaviour.cs` and the state-handler arrow of
 `CharacterParts/ArrowBehaviour.cs` implement the same lifecycle. Viewed
 through the fields both have, every mutator of one does what the
 corresponding mutator of the other does, except that a contact is judged
 by a different damageable component, and both follow the lifecycle table.
 */
module ArrowVariants {
  import opened Common
  import M = ArrowMachine
  import K = HookedArrow

  /** The fields both arrow classes keep. */
  datatype View = View(
    state: ArrowState,
    owner: Option<InventoryId>,
    ignored: seq<Collider>,
    position: Vec3,
    velocity: Vec2,
    kinematic: bool)

  function OfMachine(a: M.Arrow): (v: View)
    ensures v.state == a.state && v.owner == a.owner && v.ignored == a.ignored
  {
    View(a.state, a.owner, a.ignored, a.position, a.velocity, a.kinematic)
  }

  function OfHooked(a: K.Arrow): (v: View)
    ensures v.state == a.state && v.owner == a.owner && v.ignored == a.ignored
  {
    View(a.state, a.owner, a.ignored, a.position, a.velocity, a.kinematic)
  }

  /** Arrows of the two classes that look alike stay alike under every mutator. */
  lemma VariantsAgree(m: M.Arrow, k: K.Arrow, inv: InventoryId, sp: Option<AnchorId>,
                      pos: Vec3, vel: Vec2, ignore: seq<Collider>, other: Collider, isServer: bool)
    requires OfMachine(m) == OfHooked(k)
    ensures M.Nock(m, inv, sp).ok == K.Nock(k, inv).ok
    ensures OfMachine(M.Nock(m, inv, sp).arrow) == OfHooked(K.Nock(k, inv).arrow)
    ensures M.Quiver(m, inv).ok == K.Quiver(k, inv).ok
    ensures OfMachine(M.Quiver(m, inv).arrow) == OfHooked(K.Quiver(k, inv).arrow)
    ensures OfMachine(M.Release(m, pos, vel, ignore)) == OfHooked(K.Release(k, pos, vel, ignore))
    ensures M.RemoveFromInventory(m, inv).ok == K.RemoveFromInventory(k, inv).ok
    ensures OfMachine(M.RemoveFromInventory(m, inv).arrow) == OfHooked(K.RemoveFromInventory(k, inv).arrow)
    ensures other.isDamageable == other.isDamageableObject ==>
      OfMachine(M.OnTriggerEnter(m, other, isServer)) == OfHooked(K.OnTriggerEnter(k, other, isServer).arrow)
  {
  }

  /**
   The two classes look up different damageable components, so on the
   server a flying arrow of each that touches a collider carrying only
   `DamageableObjectBehaviour` ends differently: the hook-based arrow
   sticks, the state-handler arrow flies on; with only `DamageableBehaviour`
   it is the other way round.
   */
  lemma ContactDiffersOnDamageableKind(m: M.Arrow, k: K.Arrow, other: Collider)
    requires OfMachine(m) == OfHooked(k) && m.state == Flight && other.id !in Ids(m.ignored)
    requires !other.isSurface && other.isDamageable != other.isDamageableObject
    ensures M.OnTriggerEnter(m, other, true).state == (if other.isDamageable then Stuck else Flight)
    ensures K.OnTriggerEnter(k, other, true).arrow.state == (if other.isDamageableObject then Stuck else Flight)
    ensures OfMachine(M.OnTriggerEnter(m, other, true)) != OfHooked(K.OnTriggerEnter(k, other, true).arrow)
  {
  }

  /** The hook-based arrow follows the lifecycle table too. */
  lemma HookedFollowsTable(a: K.Arrow, inv: InventoryId, pos: Vec3, vel: Vec2,
                           ignore: seq<Collider>, other: Collider)
    ensures K.Release(a, pos, vel, ignore).state == M.After(a.state, M.ReleaseEvent)
    ensures K.Nock(a, inv).arrow.state == M.After(a.state, M.NockEvent)
    ensures K.Nock(a, inv).ok <==> M.Table(a.state, M.NockEvent).Some?
    ensures K.Quiver(a, inv).arrow.state == M.After(a.state, M.QuiverEvent)
    ensures K.Quiver(a, inv).ok <==> M.Table(a.state, M.QuiverEvent).Some?
    ensures other.id !in Ids(a.ignored) && (other.isDamageableObject || other.isSurface) ==>
      K.OnTriggerEnter(a, other, true).arrow.state == M.After(a.state, M.HitEvent)
    ensures K.OnTriggerEnter(a, other, true).arrow.state != a.state ==>
      M.Table(a.state, M.HitEvent).Some?
  {
  }
}

=== FILE: bow_controller.dfy ===
/**
 The bow of `CharacterParts/BowBehaviour.cs` on its own: the single arrow
 slot, the clamped draw progress, the per-tick draw rule and the
 reconciliation overwrite. Effects on the held arrow are returned to the
 caller (see `ArcheryWorld`), which owns the arrows.

 The clock is injected: `now` is the current tick converted to time and
 `tickDelta` the duration of one tick. The aim rotation, the draw curve and
 the launch speed are engine numerics and appear only as opaque values.
 */
module BowController {
  import opened Common

  type PositiveReal = r: real | r > 0.0 witness 1.0

  /** The tuning values the draw rule reads from the bow's `BowType` asset. */
  datatype BowType = BowType(drawTime: PositiveReal, cooldown: real)

  /**
   One bow. `slot` is the synchronised `arrow` field, `stringNockPoint` the
   transform arrows are nocked to, `ignored` the shooter's own colliders
   handed to every released arrow.
   */
  datatype Bow = Bow(
    slot: Option<ArrowId>,
    drawProgress: real,
    draw: bool,
    lastCancelOrRelease: real,
    rotation: Quat,
    position: Vec3,
    ignored: seq<Collider>,
    stringNockPoint: Option<AnchorId>,
    config: BowType)

  /** The per-tick input (the aim vector only feeds the rotation and is left out). */
  datatype InputData = InputData(draw: bool, cancel: bool)

  /** The state the server sends for reconciliation. */
  datatype ReconcileData = ReconcileData(drawProgress: real, rotation: Quat)

  /** The draw progress a bow may ever hold. */
  predicate ValidBow(b: Bow) {
    0.0 <= b.drawProgress <= 1.0
  }

  /** The `DrawProgress` setter: every write is clamped to [0, 1]. */
  function SetDrawProgress(b: Bow, v: real): (r: Bow)
    ensures ValidBow(r)
    ensures r.drawProgress == Clamp01(v)
    ensures 0.0 <= v <= 1.0 ==> r.drawProgress == v
    ensures v < 0.0 ==> r.drawProgress == 0.0
    ensures 1.0 < v ==> r.drawProgress == 1.0
    ensures r == b.(drawProgress := r.drawProgress)
  {
    b.(drawProgress := Clamp01(v))
  }

  /** The re-draw cooldown has elapsed. */
  predicate Ready(b: Bow, now: real) {
    b.lastCancelOrRelease + b.config.cooldown < now
  }

  /** A bow holding an arrow, drawing it, and the arrow it lets go of. */
  datatype DrawResult = DrawResult(bow: Bow, released: Option<ArrowId>)

  /**
   `Draw`: cancel first, then advance, then release. Only the server
   actually lets the arrow go and empties the slot; every participant
   resets the progress and restarts the cooldown.
   */
  function Draw(b: Bow, data: InputData, isServer: bool, now: real, tickDelta: real): (r: DrawResult)
    requires ValidBow(b)
    ensures ValidBow(r.bow)
    ensures r.bow.config == b.config && r.bow.rotation == b.rotation && r.bow.position == b.position
    ensures r.bow.stringNockPoint == b.stringNockPoint && r.bow.ignored == b.ignored
    // a cancel wins over everything else
    ensures data.cancel ==>
      && r.bow.drawProgress == 0.0 && !r.bow.draw && r.bow.lastCancelOrRelease == now
      && r.bow.slot == b.slot && r.released == None
    // drawing advances the progress by one tick's share of the draw time
    ensures !data.cancel && data.draw && Ready(b, now) && b.slot.Some? ==>
      && r.bow == SetDrawProgress(b, b.drawProgress + tickDelta / b.config.drawTime)
      && r.released == None
    // progress moves up only while drawing
    ensures r.bow.drawProgress > b.drawProgress ==> !data.cancel && data.draw && Ready(b, now) && b.slot.Some?
    // letting go of a drawn bow
    ensures r.released.Some? <==>
      isServer && !data.cancel && !(data.draw && Ready(b, now)) && b.drawProgress > 0.0 && b.slot.Some?
    ensures r.released.Some? ==> r.released == b.slot && r.bow.slot == None
    ensures !data.cancel && !(data.draw && Ready(b, now) && b.slot.Some?) && b.drawProgress > 0.0 && b.slot.Some? ==>
      && r.bow.drawProgress == 0.0 && r.bow.lastCancelOrRelease == now && r.bow.draw == b.draw
      && r.bow.slot == (if isServer then None else b.slot)
    // nothing to do
    ensures !data.cancel && !(data.draw && Ready(b, now) && b.slot.Some?) && !(b.drawProgress > 0.0 && b.slot.Some?) ==>
      r == DrawResult(b, None)
    ensures !isServer ==> r.bow.slot == b.slot
    // only a cancel clears the draw flag; nothing here ever sets it
    ensures r.bow.draw == (b.draw && !data.cancel)
  {
    if data.cancel then
      DrawResult(SetDrawProgress(b, 0.0).(draw := false, lastCancelOrRelease := now), None)
    else if data.draw && Ready(b, now) && b.slot.Some? then
      DrawResult(SetDrawProgress(b, b.drawProgress + tickDelta / b.config.drawTime), None)
    else if b.drawProgress > 0.0 && b.slot.Some? then
      var released := if isServer then b.slot else None;
      var emptied := if isServer then b.(slot := None) else b;
      DrawResult(SetDrawProgress(emptied, 0.0).(lastCancelOrRelease := now), released)
    else
      DrawResult(b, None)
  }

  /** The bow after `n` ticks of holding the draw input with an arrow ready. */
  function HoldDraw(b: Bow, nows: seq<real>, isServer: bool, tickDelta: real): (r: Bow)
    requires ValidBow(b)
    decreases |nows|
  {
    if |nows| == 0 then b
    else HoldDraw(Draw(b, InputData(true, false), isServer, nows[0], tickDelta).bow, nows[1..], isServer, tickDelta)
  }

  /** `n` times `step`, as repeated addition. */
  function Times(n: nat, step: real): (r: real)
    ensures step >= 0.0 ==> r >= 0.0
  {
    if n == 0 then 0.0 else step + Times(n - 1, step)
  }

  /** Repeated addition is multiplication. */
  lemma {:induction false} TimesIsProduct(n: nat, step: real)
    ensures Times(n, step) == (n as real) * step
  {
    if n > 0 {
      TimesIsProduct(n - 1, step);
      assert (n as real) * step == step + ((n - 1) as real) * step;
    }
  }

  /**
   Holding the draw accumulates progress linearly until it saturates at 1:
   after `n` ready ticks the progress is `clamp01(p + n * tickDelta / drawTime)`
   and the arrow is still on the string.
   */
  lemma {:induction false} HoldDrawAccumulates(b: Bow, nows: seq<real>, isServer: bool, tickDelta: real)
    requires ValidBow(b) && b.slot.Some? && tickDelta >= 0.0
    requires forall i | 0 <= i < |nows| :: Ready(b, nows[i])
    ensures HoldDraw(b, nows, isServer, tickDelta).drawProgress
      == Clamp01(b.drawProgress + Times(|nows|, tickDelta / b.config.drawTime))
    ensures HoldDraw(b, nows, isServer, tickDelta).slot == b.slot
    decreases |nows|
  {
    if |nows| > 0 {
      var b1 := HoldDrawFirst(b, nows, isServer, tickDelta);
      HoldDrawAccumulates(b1, nows[1..], isServer, tickDelta);
      var step := tickDelta / b.config.drawTime;
      DivNonNegative(tickDelta, b.config.drawTime);
      Clamp01Accumulates(b.drawProgress, step, Times(|nows| - 1, step));
    }
  }

  /** The first tick of holding the draw: one step of progress, all else kept, still ready. */
  lemma HoldDrawFirst(b: Bow, nows: seq<real>, isServer: bool, tickDelta: real) returns (b1: Bow)
    requires ValidBow(b) && b.slot.Some? && |nows| > 0
    requires forall i | 0 <= i < |nows| :: Ready(b, nows[i])
    ensures ValidBow(b1) && b1.slot == b.slot && b1.config == b.config
    ensures b1.drawProgress == Clamp01(b.drawProgress + tickDelta / b.config.drawTime)
    ensures forall i | 0 <= i < |nows[1..]| :: Ready(b1, nows[1..][i])
    ensures HoldDraw(b, nows, isServer, tickDelta) == HoldDraw(b1, nows[1..], isServer, tickDelta)
  {
    b1 := Draw(b, InputData(true, false), isServer, nows[0], tickDelta).bow;
    assert b1 == SetDrawProgress(b, b.drawProgress + tickDelta / b.config.drawTime);
    forall i | 0 <= i < |nows[1..]| ensures Ready(b1, nows[1..][i]) {
      assert Ready(b, nows[i + 1]);
    }
  }

  lemma DivNonNegative(x: real, y: PositiveReal)
    requires x >= 0.0
    ensures x / y >= 0.0
  {
  }

  /** `Reconcile`: overwrite progress (through the clamping setter) and rotation. */
  function Reconcile(b: Bow, data: ReconcileData): (r: Bow)
    ensures ValidBow(r)
    ensures r.rotation == data.rotation
    ensures r.drawProgress == Clamp01(data.drawProgress)
    ensures 0.0 <= data.drawProgress <= 1.0 ==> r.drawProgress == data.drawProgress
    ensures r.slot == b.slot && r.draw == b.draw && r.lastCancelOrRelease == b.lastCancelOrRelease
    ensures r.position == b.position && r.config == b.config
    ensures r.ignored == b.ignored && r.stringNockPoint == b.stringNockPoint
  {
    SetDrawProgress(b, data.drawProgress).(rotation := data.rotation)
  }

  /** `OnPostTick`: only the server produces a reconciliation snapshot. */
  function Snapshot(b: Bow, isServer: bool): (r: Option<ReconcileData>)
    ensures r.Some? <==> isServer
    ensures r.Some? ==> r.value.drawProgress == b.drawProgress && r.value.rotation == b.rotation
  {
    if !isServer then None else Some(ReconcileData(b.drawProgress, b.rotation))
  }

  /** Applying the same snapshot twice is the same as applying it once. */
  lemma ReconcileIdempotent(b: Bow, data: ReconcileData)
    ensures Reconcile(Reconcile(b, data), data) == Reconcile(b, data)
  {
    Clamp01Idempotent(data.drawProgress);
  }

  /**
   Reconciling a predicted bow with the server's snapshot makes it agree
   with the server on progress and rotation, and reconciling the server's
   own bow with its snapshot changes nothing.
   */
  lemma ReconcileAdoptsSnapshot(server: Bow, predicted: Bow)
    requires ValidBow(server)
    ensures Reconcile(predicted, Snapshot(server, true).value).drawProgress == server.drawProgress
    ensures Reconcile(predicted, Snapshot(server, true).value).rotation == server.rotation
    ensures Reconcile(server, Snapshot(server, true).value) == server
  {
  }

  /** `SwapArrow`: store the new arrow and hand back the previous one, nothing else. */
  function SwapArrow(b: Bow, newArrow: Option<ArrowId>): (r: (Option<ArrowId>, Bow))
    ensures r.0 == b.slot && r.1.slot == newArrow
    ensures r.1 == b.(slot := newArrow)
  {
    (b.slot, b.(slot := newArrow))
  }

  /** Swapping back restores the bow and returns the arrow that was swapped in. */
  lemma SwapBack(b: Bow, newArrow: Option<ArrowId>)
    ensures SwapArrow(SwapArrow(b, newArrow).1, b.slot) == (newArrow, b)
  {
  }

  /** `GetArrowFromInventory(index)`: the slot, whatever the index. */
  function GetArrowFromInventory(b: Bow, index: int): (r: Option<ArrowId>)
    ensures r == b.slot
  {
    b.slot
  }

  /** `GetArrowsFromInventory`: a one-element list holding the slot, even when it is empty. */
  function GetArrowsFromInventory(b: Bow): (r: seq<Option<ArrowId>>)
    ensures |r| == 1 && r[0] == b.slot
  {
    [b.slot]
  }
}

=== FILE: common.dfy ===
/**
 Shared vocabulary of the archery model: optional references, opaque ids for
 the engine objects the rules only compare by identity, the arrow's four
 lifecycle states, colliders with the two component flags the rules test,
 planar vectors, and Unity's clamping helpers written out exactly.
 */
module Common {

  /** A nullable engine reference: `None` stands for C#'s `null`. */
  datatype Option<+T> = None | Some(value: T)

  /** Identities of arrows, inventories (bows), transforms and colliders. */
  type ArrowId = nat
  type InventoryId = nat
  type AnchorId = nat
  type ColliderId = nat

  /** The arrow lifecycle: in the air, embedded, stored, on the string. */
  datatype ArrowState = Flight | Stuck | Quiver | Nock

  /** The states from which an arrow may be claimed by `Nock` or `Quiver`. */
  predicate Claimable(s: ArrowState) {
    s == Stuck || s == Nock || s == Quiver
  }

  /**
   A collider as the trigger callback sees it: an identity and which of the
   three components the rules look up its game object carries. The two arrow
   classes ask for different damageable components: the state-handler arrow
   for `DamageableBehaviour` (`isDamageable`), the hook-based arrow for
   `DamageableObjectBehaviour` (`isDamageableObject`).
   */
  datatype Collider = Collider(id: ColliderId, isDamageable: bool, isDamageableObject: bool, isSurface: bool)

  /**
   The identities of a list of colliders. `List<Collider2D>.Contains`
   compares references, so a collider is on a list exactly when its
   identity is.
   */
  function Ids(cs: seq<Collider>): (r: set<ColliderId>)
    ensures forall i | 0 <= i < |cs| :: cs[i].id in r
    ensures forall id | id in r :: exists i | 0 <= i < |cs| :: cs[i].id == id
  {
    set i | 0 <= i < |cs| :: cs[i].id
  }

  datatype Vec2 = Vec2(x: real, y: real)
  datatype Vec3 = Vec3(x: real, y: real, z: real)
  /** A rotation; the rules only copy rotations, they never compute with them. */
  datatype Quat = Quat(x: real, y: real, z: real, w: real)
  /** Position and rotation of a transform. */
  datatype Pose = Pose(position: Vec3, rotation: Quat)

  const ZeroVelocity: Vec2 := Vec2(0.0, 0.0)

  /**
   Unity's `Mathf.Clamp(value, min, max)`: the lower bound is compared first,
   so when `max < min` the result is `min` below `min` and `max` otherwise.
   */
  function Clamp(v: real, lo: real, hi: real): (r: real)
    ensures lo <= hi ==> lo <= r <= hi
    ensures lo <= v <= hi ==> r == v
    ensures v < lo ==> r == lo
    ensures lo <= hi && hi < v ==> r == hi
  {
    if v < lo then lo else if v > hi then hi else v
  }

  /** Unity's `Mathf.Clamp01`. */
  function Clamp01(v: real): (r: real)
    ensures 0.0 <= r <= 1.0
    ensures 0.0 <= v <= 1.0 ==> r == v
    ensures v < 0.0 ==> r == 0.0
    ensures 1.0 < v ==> r == 1.0
  {
    Clamp(v, 0.0, 1.0)
  }

  /** Clamping is idempotent: a clamped value is its own clamp. */
  lemma Clamp01Idempotent(v: real)
    ensures Clamp01(Clamp01(v)) == Clamp01(v)
  {
  }

  /** Two non-negative increments clamp the same whether clamped in between or not. */
  lemma Clamp01Accumulates(p: real, x: real, y: real)
    requires 0.0 <= p <= 1.0 && 0.0 <= x && 0.0 <= y
    ensures Clamp01(Clamp01(p + x) + y) == Clamp01(p + x + y)
  {
  }

  /** No element occurs twice. */
  predicate NoDuplicates<T(==)>(s: seq<T>) {
    forall i, j | 0 <= i < j < |s| :: s[i] != s[j]
  }

  /** A duplicate-free list splits into a head that is not in its duplicate-free tail. */
  lemma NoDuplicatesTail<T>(s: seq<T>)
    requires |s| > 0
    ensures NoDuplicates(s) ==> NoDuplicates(s[1..]) && s[0] !in s[1..]
  {
    if NoDuplicates(s) {
      forall k | 0 <= k < |s[1..]| ensures s[1..][k] != s[0] {
        assert s[1..][k] == s[k + 1];
      }
      forall i, j | 0 <= i < j < |s[1..]| ensures s[1..][i] != s[1..][j] {
        assert s[1..][i] == s[i + 1] && s[1..][j] == s[j + 1];
      }
    }
  }

  /** Prefixing an element that is not in a duplicate-free list keeps it duplicate-free. */
  lemma NoDuplicatesCons<T>(x: T, t: seq<T>)
    ensures x !in t && NoDuplicates(t) ==> NoDuplicates([x] + t)
  {
    if x !in t && NoDuplicates(t) {
      var r := [x] + t;
      forall i, j | 0 <= i < j < |r| ensures r[i] != r[j] {
        assert r[j] == t[j - 1];
        if i > 0 {
          assert r[i] == t[i - 1];
        }
      }
    }
  }
}

=== FILE: health.dfy ===
/**
 The networked damageable of `Character/DamageableObjectBehaviour.cs`:
 health written through a setter that clamps to [0, maxHealth], damage and
 heal that ignore a zero amount, and the notifications each call raises,
 returned as an ordered list of events.
 */
module Health {
  import opened Common

  /** The `UnityEvent`s a damageable raises. */
  datatype Notification = OnDamage | OnHeal | OnHealthChange | OnDeath

  /** `maxHealth` is a serialized tuning value; `health` is the synchronised field. */
  datatype Damageable = Damageable(health: real, maxHealth: real)

  /** The range every write of the setter lands in, when the maximum is not negative. */
  predicate InRange(d: Damageable) {
    0.0 <= d.health <= d.maxHealth
  }

  /** A damageable after a call, with the notifications raised, in order. */
  datatype Effect = Effect(target: Damageable, events: seq<Notification>)

  /** The `Health` setter: `Mathf.Clamp(value, 0, maxHealth)`. */
  function SetHealth(d: Damageable, v: real): (r: Damageable)
    ensures r.maxHealth == d.maxHealth
    ensures d.maxHealth >= 0.0 ==> InRange(r)
    ensures 0.0 <= v <= d.maxHealth ==> r.health == v
    ensures v < 0.0 ==> r.health == 0.0
    ensures 0.0 <= d.maxHealth < v ==> r.health == d.maxHealth
  {
    d.(health := Clamp(v, 0.0, d.maxHealth))
  }

  /** `OnStartServer`: the field itself (not the setter) is set to the maximum. */
  function StartServer(d: Damageable): (r: Damageable)
    ensures r.health == d.maxHealth && r.maxHealth == d.maxHealth
    ensures d.maxHealth >= 0.0 ==> InRange(r)
  {
    d.(health := d.maxHealth)
  }

  /**
   `Damage(amount)`: a zero amount does nothing; otherwise health drops
   (through the setter), damage and health-change are raised, and if no
   health is left it is set to zero and death is raised, on every such
   call.
   */
  function Damage(d: Damageable, amount: real): (r: Effect)
    ensures r.target.maxHealth == d.maxHealth
    ensures InRange(d) || (amount != 0.0 && d.maxHealth >= 0.0) ==> InRange(r.target)
    ensures amount == 0.0 ==> r == Effect(d, [])
    ensures amount != 0.0 ==>
      r.events == [OnDamage, OnHealthChange] || r.events == [OnDamage, OnHealthChange, OnDeath]
    ensures amount != 0.0 && d.maxHealth > 0.0 ==> (OnDeath in r.events <==> d.health - amount <= 0.0)
    ensures OnDeath in r.events ==> r.events[|r.events| - 1] == OnDeath
    ensures OnHeal !in r.events
    ensures amount != 0.0 && d.maxHealth >= 0.0 ==>
      && r.target.health == Clamp(d.health - amount, 0.0, d.maxHealth)
      && (OnDeath in r.events <==> r.target.health == 0.0)
  {
    if amount == 0.0 then Effect(d, [])
    else
      var hurt := SetHealth(d, d.health - amount);
      if hurt.health > 0.0 then Effect(hurt, [OnDamage, OnHealthChange])
      else Effect(SetHealth(hurt, 0.0), [OnDamage, OnHealthChange, OnDeath])
  }

  /**
   `Heal(amount)`: a zero amount does nothing; otherwise health rises
   (through the setter, so never past the maximum), and heal and
   health-change are raised. Healing never raises death.
   */
  function Heal(d: Damageable, amount: real): (r: Effect)
    ensures r.target.maxHealth == d.maxHealth
    ensures InRange(d) || (amount != 0.0 && d.maxHealth >= 0.0) ==> InRange(r.target)
    ensures amount == 0.0 ==> r == Effect(d, [])
    ensures amount != 0.0 ==> r.events == [OnHeal, OnHealthChange]
    ensures amount != 0.0 ==> r.target.health == Clamp(d.health + amount, 0.0, d.maxHealth)
    ensures OnDeath !in r.events
  {
    if amount == 0.0 then Effect(d, [])
    else Effect(SetHealth(d, d.health + amount), [OnHeal, OnHealthChange])
  }

  /** A call made on a damageable. */
  datatype Call = DamageCall(amount: real) | HealCall(amount: real)

  /** One call. */
  function Apply(d: Damageable, c: Call): (r: Effect)
    ensures r.target.maxHealth == d.maxHealth
  {
    match c
    case DamageCall(a) => Damage(d, a)
    case HealCall(a) => Heal(d, a)
  }

  /** A sequence of calls, with all notifications concatenated in order. */
  function Run(d: Damageable, calls: seq<Call>): (r: Effect)
    decreases |calls|
  {
    if |calls| == 0 then Effect(d, [])
    else
      var first := Apply(d, calls[0]);
      var rest := Run(first.target, calls[1..]);
      Effect(rest.target, first.events + rest.events)
  }

  /**
   Whatever calls are made, a damageable whose health is in range keeps it
   in range, and its maximum never changes.
   */
  lemma {:induction false} RunStaysInRange(d: Damageable, calls: seq<Call>)
    requires InRange(d)
    ensures InRange(Run(d, calls).target)
    ensures Run(d, calls).target.maxHealth == d.maxHealth
    decreases |calls|
  {
    if |calls| > 0 {
      RunStaysInRange(Apply(d, calls[0]).target, calls[1..]);
    }
  }

  /** Once started on the server, health is in range after any calls, whatever it was before. */
  lemma StartedStaysInRange(d: Damageable, calls: seq<Call>)
    requires d.maxHealth >= 0.0
    ensures InRange(Run(StartServer(d), calls).target)
  {
    RunStaysInRange(StartServer(d), calls);
  }

  /** Healing back a loss that neither clamped nor killed restores the damageable exactly. */
  lemma HealUndoesDamage(d: Damageable, amount: real)
    requires InRange(d) && 0.0 < amount < d.health
    ensures Heal(Damage(d, amount).target, amount).target == d
    ensures Damage(d, amount).events + Heal(Damage(d, amount).target, amount).events
      == [OnDamage, OnHealthChange, OnHeal, OnHealthChange]
  {
  }

  /** At zero health every positive hit raises death again and changes nothing else. */
  lemma DeathRepeats(d: Damageable, amount: real)
    requires InRange(d) && d.health == 0.0 && amount > 0.0
    ensures Damage(d, amount).events == [OnDamage, OnHealthChange, OnDeath]
    ensures Damage(d, amount).target == d
  {
  }

  /**
   There is no once-only guard on death: a full-health damageable of 10
   dies from a hit of 15 and raises death again on a further hit of 5.
   */
  lemma DeathTwice()
    ensures var first := Damage(Damageable(10.0, 10.0), 15.0);
      && first.events == [OnDamage, OnHealthChange, OnDeath]
      && Damage(first.target, 5.0).events == [OnDamage, OnHealthChange, OnDeath]
  {
  }

  /** The damage that lands is never more than the amount, and never more than what was left. */
  lemma DamageLoss(d: Damageable, amount: real)
    requires InRange(d) && amount > 0.0
    ensures 0.0 <= d.health - Damage(d, amount).target.health <= amount
    ensures d.health - Damage(d, amount).target.health <= d.health
  {
  }
}

=== FILE: hooked_arrow.dfy ===
/**
 The hook-based arrow of `Arrows/ArrowBehaviour.cs`. Every state change goes
 through `SwitchStates`, which runs the old state's exit hooks, assigns the
 new state and runs the new state's enter hooks. Only the base class's hook
 bodies are modelled; the hit hooks are recorded as emitted events so that
 a subclass's reaction to a hit can be attached to them.
 */
module HookedArrow {
  import opened Common

  datatype Arrow = Arrow(
    state: ArrowState,
    owner: Option<InventoryId>,
    ignored: seq<Collider>,
    position: Vec3,
    velocity: Vec2,
    kinematic: bool)

  /** The hit hooks `PossibleHit` calls, in call order. */
  datatype HitHook =
    | HitSurfaceServerOnly(surface: ColliderId)
    | HitSurface(surface: ColliderId)
    | HitDamageableServerOnly(damageable: ColliderId)
    | HitDamageable(damageable: ColliderId)

  /** The collider a hook is called with. */
  function Target(h: HitHook): ColliderId {
    match h
    case HitSurfaceServerOnly(c) => c
    case HitSurface(c) => c
    case HitDamageableServerOnly(c) => c
    case HitDamageable(c) => c
  }

  /** Position of a hook in `PossibleHit`'s call order. */
  function Rank(h: HitHook): nat {
    match h
    case HitSurfaceServerOnly(_) => 0
    case HitSurface(_) => 1
    case HitDamageableServerOnly(_) => 2
    case HitDamageable(_) => 3
  }

  datatype Hit = Hit(arrow: Arrow, hooks: seq<HitHook>)
  datatype Step = Step(ok: bool, arrow: Arrow)

  /**
   The enter hooks: entering flight drops the owner and frees the body;
   entering the stuck state locks the body and zeroes its velocity (and
   assigns `Stuck` once more); nock and quiver have no enter behaviour.
   */
  function EnterHooks(a: Arrow): (r: Arrow)
    ensures r.state == a.state && r.ignored == a.ignored && r.position == a.position
    ensures a.state == Flight ==> r.owner == None && !r.kinematic && r.velocity == a.velocity
    ensures a.state == Stuck ==> r.owner == a.owner && r.kinematic && r.velocity == ZeroVelocity
    ensures a.state in {ArrowState.Nock, ArrowState.Quiver} ==> r == a
  {
    match a.state
    case Flight => a.(owner := None, kinematic := false)
    case Nock => a
    case Stuck => a.(kinematic := true, velocity := ZeroVelocity, state := Stuck)
    case Quiver => a
  }

  /**
   `SwitchStates(next)`: exit hooks, assignment, enter hooks. The base
   class's exit hooks have empty bodies, so only the assignment and the
   enter hooks act.
   */
  function SwitchStates(a: Arrow, next: ArrowState): (r: Arrow)
    ensures r.state == next
    ensures r.ignored == a.ignored && r.position == a.position
    ensures next == Flight ==> r.owner == None && !r.kinematic && r.velocity == a.velocity
    ensures next == Stuck ==> r.owner == a.owner && r.kinematic && r.velocity == ZeroVelocity
    ensures next in {ArrowState.Nock, ArrowState.Quiver} ==> r == a.(state := next)
  {
    EnterHooks(a.(state := next))
  }

  /** The outcome of a switch depends only on the target state, never on the state left. */
  lemma SwitchForgetsOrigin(a: Arrow, b: Arrow, next: ArrowState)
    requires a.(state := b.state) == b
    ensures SwitchStates(a, next) == SwitchStates(b, next)
  {
  }

  /** `Release`: a no-op unless nocked; otherwise placed, launched and switched to flight. */
  function Release(a: Arrow, position: Vec3, velocity: Vec2, ignore: seq<Collider>): (r: Arrow)
    ensures a.state != ArrowState.Nock ==> r == a
    ensures a.state == ArrowState.Nock ==>
      && r.state == Flight && r.owner == None && !r.kinematic
      && r.position == position && r.velocity == velocity && r.ignored == ignore
  {
    if a.state != ArrowState.Nock then a
    else SwitchStates(a.(position := position, velocity := velocity, ignored := ignore), Flight)
  }

  /**
   `PossibleHit`: a damageable or surface collider sticks the arrow (from
   whatever state it is in); then the surface hooks run, then the damageable
   hooks, each server-only hook only on the server.
   */
  function PossibleHit(a: Arrow, other: Collider, isServer: bool): (r: Hit)
    ensures (other.isDamageableObject || other.isSurface) ==> r.arrow == SwitchStates(a, Stuck)
    ensures !other.isDamageableObject && !other.isSurface ==> r.arrow == a && r.hooks == []
    ensures HitSurface(other.id) in r.hooks <==> other.isSurface
    ensures HitDamageable(other.id) in r.hooks <==> other.isDamageableObject
    ensures HitSurfaceServerOnly(other.id) in r.hooks <==> other.isSurface && isServer
    ensures HitDamageableServerOnly(other.id) in r.hooks <==> other.isDamageableObject && isServer
    // every hook is about this collider, and the hooks come in call order:
    // surface before damageable, each server-only hook before its plain one
    ensures forall h | h in r.hooks :: Target(h) == other.id
    ensures InCallOrder(r.hooks)
  {
    var stuck := if other.isDamageableObject || other.isSurface then SwitchStates(a, Stuck) else a;
    var surfaceHooks := HookCalls(HitSurfaceServerOnly(other.id), HitSurface(other.id), other.isSurface, isServer);
    var damageableHooks :=
      HookCalls(HitDamageableServerOnly(other.id), HitDamageable(other.id), other.isDamageableObject, isServer);
    InCallOrderConcat(surfaceHooks, damageableHooks);
    Hit(stuck, surfaceHooks + damageableHooks)
  }

  /** Hooks listed in call order. */
  predicate InCallOrder(hooks: seq<HitHook>) {
    forall i, j | 0 <= i < j < |hooks| :: Rank(hooks[i]) < Rank(hooks[j])
  }

  /** Surface hooks in call order followed by damageable hooks in call order are in call order. */
  lemma InCallOrderConcat(s: seq<HitHook>, d: seq<HitHook>)
    requires InCallOrder(s) && InCallOrder(d)
    requires forall h | h in s :: Rank(h) <= 1
    requires forall h | h in d :: Rank(h) >= 2
    ensures InCallOrder(s + d)
  {
    forall i, j | 0 <= i < j < |s + d| ensures Rank((s + d)[i]) < Rank((s + d)[j]) {
      if j < |s| {
        assert (s + d)[i] == s[i] && (s + d)[j] == s[j];
      } else if i >= |s| {
        assert (s + d)[i] == d[i - |s|] && (s + d)[j] == d[j - |s|];
      } else {
        assert (s + d)[i] == s[i] && (s + d)[j] == d[j - |s|];
      }
    }
  }

  /**
   One component's hooks: if the component is present, the server-only
   hook (on the server) and then the plain hook.
   */
  function HookCalls(serverOnly: HitHook, plain: HitHook, present: bool, isServer: bool): (r: seq<HitHook>)
    requires Rank(serverOnly) < Rank(plain)
    ensures forall h | h in r :: h == serverOnly || h == plain
    ensures serverOnly in r <==> present && isServer
    ensures plain in r <==> present
    ensures InCallOrder(r)
  {
    if present then (if isServer then [serverOnly] else []) + [plain] else []
  }

  /**
   `OnTriggerEnter2D`: nothing happens off the server, for an ignored
   collider, or outside flight; otherwise the contact is a possible hit.
   */
  function OnTriggerEnter(a: Arrow, other: Collider, isServer: bool): (r: Hit)
    ensures !isServer || other.id in Ids(a.ignored) || a.state != Flight ==> r == Hit(a, [])
    ensures isServer && other.id !in Ids(a.ignored) && a.state == Flight ==> r == PossibleHit(a, other, true)
    ensures r.arrow.state != a.state ==>
      isServer && other.id !in Ids(a.ignored) && a.state == Flight && r.arrow.state == Stuck
  {
    if !isServer then Hit(a, [])
    else if other.id in Ids(a.ignored) then Hit(a, [])
    else if a.state == Flight then PossibleHit(a, other, isServer)
    else Hit(a, [])
  }

  /** `Nock(inventory)`: claims the arrow, refused in flight. */
  function Nock(a: Arrow, inventory: InventoryId): (r: Step)
    ensures r.ok <==> Claimable(a.state)
    ensures !r.ok ==> r.arrow == a
    ensures r.ok ==> r.arrow == a.(owner := Some(inventory), state := ArrowState.Nock)
  {
    if !Claimable(a.state) then Step(false, a)
    else Step(true, SwitchStates(a.(owner := Some(inventory)), ArrowState.Nock))
  }

  /** `Quiver(inventory)`: claims the arrow for storage, refused in flight. */
  function Quiver(a: Arrow, inventory: InventoryId): (r: Step)
    ensures r.ok <==> Claimable(a.state)
    ensures !r.ok ==> r.arrow == a
    ensures r.ok ==> r.arrow == a.(owner := Some(inventory), state := ArrowState.Quiver)
  {
    if !Claimable(a.state) then Step(false, a)
    else Step(true, SwitchStates(a.(owner := Some(inventory)), ArrowState.Quiver))
  }

  /** `RemoveFromInventory(inventory)`: identity check against the owner. */
  function RemoveFromInventory(a: Arrow, inventory: InventoryId): (r: Step)
    ensures r.ok <==> a.owner == Some(inventory)
    ensures r.ok ==> r.arrow == a.(owner := None)
    ensures !r.ok ==> r.arrow == a
  {
    if Some(inventory) != a.owner then Step(false, a)
    else Step(true, a.(owner := None))
  }
}

=== FILE: legacy_health.dfy ===
/**
 The older, offline damageable of `_Scripts/DamageableObjectBehaviour.cs`:
 the same clamping setter, but no zero-amount guard and only a death
 notification.
 */
module LegacyHealth {
  import opened Common
  import H = Health

  /** `Damage(amount)`: drop health through the setter; with none left, zero it and raise death. */
  function Damage(d: H.Damageable, amount: real): (r: H.Effect)
    ensures r.target.maxHealth == d.maxHealth
    ensures d.maxHealth >= 0.0 ==> H.InRange(r.target)
    ensures r.events == [] || r.events == [H.OnDeath]
    ensures d.maxHealth >= 0.0 ==>
      && r.target.health == Clamp(d.health - amount, 0.0, d.maxHealth)
      && (r.events == [H.OnDeath] <==> r.target.health == 0.0)
  {
    var hurt := H.SetHealth(d, d.health - amount);
    if hurt.health > 0.0 then H.Effect(hurt, [])
    else H.Effect(H.SetHealth(hurt, 0.0), [H.OnDeath])
  }

  /** `Heal(amount)`: raise health through the setter; nothing is notified. */
  function Heal(d: H.Damageable, amount: real): (r: H.Damageable)
    ensures r.maxHealth == d.maxHealth
    ensures d.maxHealth >= 0.0 ==> H.InRange(r)
    ensures r.health == Clamp(d.health + amount, 0.0, d.maxHealth)
  {
    H.SetHealth(d, d.health + amount)
  }

  /**
   For a non-zero amount the two variants leave the same health; the older
   one raises death exactly when the newer one does and raises nothing else.
   */
  lemma AgreesWithNetworked(d: H.Damageable, amount: real)
    requires amount != 0.0
    ensures Damage(d, amount).target == H.Damage(d, amount).target
    ensures H.OnDeath in Damage(d, amount).events <==> H.OnDeath in H.Damage(d, amount).events
    ensures Heal(d, amount) == H.Heal(d, amount).target
  {
  }

  /**
   Only the older variant treats a zero hit as a hit: at zero health it
   raises death again, where the newer one ignores the call.
   */
  lemma ZeroHitAtZeroHealth(d: H.Damageable)
    requires H.InRange(d) && d.health == 0.0
    ensures Damage(d, 0.0).events == [H.OnDeath]
    ensures H.Damage(d, 0.0).events == []
    ensures Damage(d, 0.0).target == H.Damage(d, 0.0).target == d
  {
  }

  /** On a damageable in range a zero amount leaves health as it is in both variants. */
  lemma ZeroAmountKeepsHealth(d: H.Damageable)
    requires H.InRange(d)
    ensures Damage(d, 0.0).target == d && Heal(d, 0.0) == d
  {
  }
}

=== FILE: tick_subscription.dfy ===
/**
 `SubscribeToTimeManager` of `Utils/TimedNetworkBehaviour.cs`: a component
 attaches its tick and post-tick handlers to the time manager when it
 subscribes and detaches them when it unsubscribes, guarded by the
 `subscribed` flag and by whether a time manager exists at all.
 */
module TickSubscription {

  /**
   The flag and how many times each handler is currently attached to the
   time manager's `OnTick` and `OnPostTick` delegates.
   */
  datatype Subscription = Subscription(subscribed: bool, tickHandlers: nat, postTickHandlers: nat)

  /** A fresh component: not subscribed, nothing attached. */
  const Initial: Subscription := Subscription(false, 0, 0)

  /** The flag tells the truth: each handler is attached once when subscribed and not at all otherwise. */
  predicate Balanced(s: Subscription) {
    var n := if s.subscribed then 1 else 0;
    s.tickHandlers == n && s.postTickHandlers == n
  }

  /** `d -= handler` on a delegate: removing a handler that is not attached does nothing. */
  function Detach(n: nat): (r: nat)
    ensures n > 0 ==> r + 1 == n
    ensures n == 0 ==> r == 0
  {
    if n > 0 then n - 1 else 0
  }

  /**
   `SubscribeToTimeManager(subscribe)`. `clockPresent` is whether
   `InstanceFinder.TimeManager` is non-null at the time of the call.
   */
  function SubscribeToTimeManager(s: Subscription, clockPresent: bool, subscribe: bool): (r: Subscription)
    ensures !clockPresent || subscribe == s.subscribed ==> r == s
    ensures clockPresent ==> r.subscribed == subscribe
    // handlers are attached only on a false-to-true change and detached only on a true-to-false one
    ensures r.tickHandlers > s.tickHandlers ==> clockPresent && !s.subscribed && subscribe
    ensures r.tickHandlers < s.tickHandlers ==> clockPresent && s.subscribed && !subscribe
    // both handlers are attached together, and detached together
    ensures clockPresent && subscribe && !s.subscribed ==>
      r.tickHandlers == s.tickHandlers + 1 && r.postTickHandlers == s.postTickHandlers + 1
    ensures clockPresent && !subscribe && s.subscribed ==>
      r.tickHandlers == Detach(s.tickHandlers) && r.postTickHandlers == Detach(s.postTickHandlers)
    ensures Balanced(s) ==> Balanced(r)
  {
    if !clockPresent then s
    else if subscribe == s.subscribed then s
    else if subscribe then
      Subscription(true, s.tickHandlers + 1, s.postTickHandlers + 1)
    else
      Subscription(false, Detach(s.tickHandlers), Detach(s.postTickHandlers))
  }

  /** Asking twice for the same thing is the same as asking once. */
  lemma SubscribeIdempotent(s: Subscription, clockPresent: bool, subscribe: bool)
    ensures SubscribeToTimeManager(SubscribeToTimeManager(s, clockPresent, subscribe), clockPresent, subscribe)
      == SubscribeToTimeManager(s, clockPresent, subscribe)
  {
  }

  /** Subscribing then unsubscribing, with a clock present, restores a balanced component. */
  lemma SubscribeThenUnsubscribe(s: Subscription)
    requires Balanced(s)
    ensures SubscribeToTimeManager(SubscribeToTimeManager(s, true, true), true, false)
      == SubscribeToTimeManager(s, true, false)
  {
  }

  /** One call of a run: whether a clock was present, and what was asked. */
  datatype Request = Request(clockPresent: bool, subscribe: bool)

  /** The component after a run of calls. */
  function Replay(s: Subscription, requests: seq<Request>): Subscription
    decreases |requests|
  {
    if |requests| == 0 then s
    else Replay(SubscribeToTimeManager(s, requests[0].clockPresent, requests[0].subscribe), requests[1..])
  }

  /** The last request that found a clock, if any: the reference for what the flag ends as. */
  function LastHeard(requests: seq<Request>, otherwise: bool): bool
    decreases |requests|
  {
    if |requests| == 0 then otherwise
    else
      var last := requests[|requests| - 1];
      if last.clockPresent then last.subscribe else LastHeard(requests[..|requests| - 1], otherwise)
  }

  /**
   After any run of calls the flag is the last request that found a clock
   (or what it was), and a balanced component stays balanced, so each
   handler is attached at most once.
   */
  lemma {:induction false} ReplayFollowsLastRequest(s: Subscription, requests: seq<Request>)
    requires Balanced(s)
    ensures Balanced(Replay(s, requests))
    ensures Replay(s, requests).subscribed == LastHeard(requests, s.subscribed)
    ensures Replay(s, requests).tickHandlers <= 1 && Replay(s, requests).postTickHandlers <= 1
    decreases |requests|
  {
    if |requests| > 0 {
      var front := requests[..|requests| - 1];
      var last := requests[|requests| - 1];
      ReplayFollowsLastRequest(s, front);
      ReplaySnoc(s, front, last);
      assert front + [last] == requests;
    }
  }

  /**
   A fresh component, after any run of calls, is subscribed exactly when
   the last request that found a clock asked for it, and has each handler
   attached once then and not at all otherwise.
   */
  lemma FreshReplay(requests: seq<Request>)
    ensures Balanced(Replay(Initial, requests))
    ensures Replay(Initial, requests).subscribed == LastHeard(requests, false)
  {
    ReplayFollowsLastRequest(Initial, requests);
  }

  /** Replaying one more request is one more call. */
  lemma {:induction false} ReplaySnoc(s: Subscription, requests: seq<Request>, last: Request)
    ensures Replay(s, requests + [last])
      == SubscribeToTimeManager(Replay(s, requests), last.clockPresent, last.subscribe)
    decreases |requests|
  {
    if |requests| == 0 {
      assert requests + [last] == [last];
    } else {
      assert (requests + [last])[1..] == requests[1..] + [last];
      ReplaySnoc(SubscribeToTimeManager(s, requests[0].clockPresent, requests[0].subscribe), requests[1..], last);
    }
  }
}
